=== FILE: README.md ===
# CostManager costing core in Dafny

CostManager is a recipe-costing application. The owner of a small food
business keeps an ingredient catalogue with a price per unit. Recipes are
built from catalogue ingredients. The server stores each recipe's total cost
and profit margin, and a dashboard combines the margins with the monthly
fixed costs into a break-even point.

This project models the arithmetic and the storage protocol behind those
numbers, as pure functions over immutable tables:

- `units.dfy`: the client's unit catalogue, with a dimension and a factor to
  the base unit for each tag, plus conversion and the units offered for an
  ingredient.
- `recipe_form.dfy`: the recipe form in the browser. It covers adding a line
  (with unit conversion and the compatibility check), removing a line
  (`splice` semantics, including negative indices), the running cost estimate
  and the margin badge.
- `ingredients.dfy`: the ingredient controller. It covers listing by name,
  create under a serial key, and update and delete with their 404 replies.
- `recipes.dfy`: the recipe controller's save transaction for create and
  update. It writes the header, deletes the old lines on update, inserts one
  line per item whose ingredient exists, writes the totals and commits.
  Every statement can fail, and a failure rolls back to the store it was
  given.
- `recipe_proofs.dfy`: the store invariants that saves keep. Recipe keys come
  from a serial counter, every line belongs to a recipe, and every recipe's
  totals equal the sum of its lines. Also idempotence of update, and the
  silent skipping of unknown ingredients.
- `recipe_detail.dfy`: `getRecipeById` and the edit round trip through the
  form.
- `financials.dfy`: the monthly financial records, with their upsert keyed by
  (user, period date) and the per-user listing.
- `break_even.dfy`: the break-even formula and the client calculator, with
  its status banner and the payload it posts.
- `dashboard.dfy`: the dashboard snapshot. It holds the latest period, the
  average margin, the break-even point, the top five recipes and the history.
- `agreement.dfy`: places where client and server compute the same figure.
  The cost estimate the form shows equals the total the server stores. A
  saved calculator form is what the dashboard then reports.

Amounts are `real`. Client-side values that JavaScript can turn into `NaN`
are modelled with `JsNum` (a finite value or NaN); `parseFloat(x) || 0` is
`OrZero`. A database failure is modelled as a `Fault` parameter that names
the statement that fails. Tables are sequences in insertion order.

## Model

| member | source | states |
|---|---|---|
| Units.DimensionOf | frontend/src/pages/RecipesPage.tsx:37-41 | a tag has a dimension exactly when it is one of the ten catalogue tags |
| Units.FactorOf | frontend/src/pages/RecipesPage.tsx:24-35 | exactly the catalogue tags have a factor, and every factor is positive |
| Units.BaseUnit | frontend/src/pages/RecipesPage.tsx:24-35 | each dimension has exactly one tag whose factor is 1, so the base unit is unique |
| Units.Convert | frontend/src/pages/RecipesPage.tsx:151-165 | a conversion exists iff both tags are known and share a dimension; the result holds as many base units as the input |
| Units.ConvertRoundTrip | frontend/src/pages/RecipesPage.tsx:165 | in exact arithmetic, converting a quantity to another unit and back returns the original quantity |
| Units.TagsHaveNoRepeats | frontend/src/pages/RecipesPage.tsx:24-35 | the catalogue lists each tag once, as the keys of an object do |
| Units.WithDimension | frontend/src/pages/RecipesPage.tsx:136 | keeps exactly the tags of the given dimension, each once when the input has no repeats |
| Units.AvailableUnits | frontend/src/pages/RecipesPage.tsx:133-137 | the ingredient's own unit is always offered; outside the catalogue it is the only one; otherwise exactly the tags of its dimension are; no unit is offered twice |
| RecipeForm.FindIngredient | frontend/src/pages/RecipesPage.tsx:142 | None iff no ingredient has the key; otherwise the first one that does |
| RecipeForm.TargetUnit | frontend/src/pages/RecipesPage.tsx:148 | the chosen unit, or the ingredient's own unit when none is chosen |
| RecipeForm.PricedLine | frontend/src/pages/RecipesPage.tsx:156-178 | the line is in the ingredient's own unit; quantity and cost are NaN iff that unit is outside the catalogue; otherwise the quantity is the conversion of the entered amount and the cost is price times quantity |
| RecipeForm.PricedLineKeepsAmount | frontend/src/pages/RecipesPage.tsx:165 | in exact arithmetic, the stored quantity holds as many base units as the entered one |
| RecipeForm.AddIngredient | frontend/src/pages/RecipesPage.tsx:139-185 | ignored iff no ingredient is selected, it is not found, or the quantity is not positive; an alert iff the dimensions differ; otherwise exactly one priced line is appended and the old lines are kept |
| RecipeForm.SpliceStart | frontend/src/pages/RecipesPage.tsx:189 | the position `splice(index, 1)` removes at, never past the end |
| RecipeForm.RemoveLine | frontend/src/pages/RecipesPage.tsx:187-191 | an index in range removes exactly that line; past the end nothing changes; a negative index counts from the end and clamps to the first line; an empty list stays empty |
| RecipeForm.EstimatedCost | frontend/src/pages/RecipesPage.tsx:226 | the estimate is NaN iff some line's cost is NaN |
| RecipeForm.EstimatedCostIsSum | frontend/src/pages/RecipesPage.tsx:226 | with finite costs the estimate is the sum of the line costs |
| RecipeForm.EstimateAfterRemove | frontend/src/pages/RecipesPage.tsx:187-191 | removing a line lowers the estimate by exactly that line's cost |
| RecipeForm.EstimateAfterAdd | frontend/src/pages/RecipesPage.tsx:168-180 | adding a line raises the estimate by exactly the new line's cost |
| RecipeForm.MarginBadge | frontend/src/pages/RecipesPage.tsx:432-437 | a badge iff a price was typed; a percentage iff price and cost are numbers and the price is not 0, and then the percentage times the price is the price minus the cost, times 100, and the badge is green iff the percentage is at least 30; for a positive price that is a cost of at most 70% of the price; at price 0 it is green iff the cost is negative; NaN inputs give no percentage and no green |
| RecipeForm.DefaultUnitKeepsQuantity | frontend/src/pages/RecipesPage.tsx:148 | in exact arithmetic, with no unit chosen the entered quantity is stored unchanged |
| RecipeForm.WorkedExample | frontend/src/pages/RecipesPage.tsx:159-166 | 500 g of an ingredient at 10 per kg is stored as 0.5 kg costing 5 |
| Ingredients.Find | backend/controllers/recipesController.js:54 | None iff no row has the key; otherwise a row of the table with that key |
| Ingredients.List | backend/controllers/ingredientsController.js:3-11 | every row exactly once, in name order |
| Ingredients.Create | backend/controllers/ingredientsController.js:13-25 | the new row gets a fresh key and the posted fields; every other key's lookup is unchanged and the serial invariant is kept |
| Ingredients.FindAppend | backend/controllers/ingredientsController.js:16-20 | a row appended under a fresh key is found under that key and hides no other row |
| Ingredients.Update | backend/controllers/ingredientsController.js:27-43 | 404 iff the key is missing; otherwise that row holds the new fields and no other row changes |
| Ingredients.Replace | backend/controllers/ingredientsController.js:31-34 | keys are kept in place; the row under the key becomes the new row, others are found as before |
| Ingredients.Delete | backend/controllers/ingredientsController.js:45-57 | 404 iff the key is missing; otherwise that key is gone, every other lookup is unchanged and one row fewer remains |
| Ingredients.Remove | backend/controllers/ingredientsController.js:48 | key order is kept, nothing new appears, the key is no longer found and others are |
| Ingredients.NameLeIsTotalPreorder | backend/controllers/ingredientsController.js:5 | ordering by name is a total preorder, a valid `ORDER BY` |
| Sorting.SortBy | backend/controllers/ingredientsController.js:5 | the result is sorted and is a permutation of the input |
| Sorting.SortedPrefix | backend/routes/dashboard.js:47-48 | `ORDER BY … LIMIT n`: at most n rows, sorted, taken from the input, and no row left out comes before a row kept |
| Numbers.Add | frontend/src/pages/RecipesPage.tsx:226 | JavaScript addition: NaN iff either side is NaN |
| Numbers.OrZero | frontend/src/pages/BreakEvenPage.tsx:46 | `parseFloat(x) \|\| 0`: a number other than 0 is kept, and NaN or 0 gives 0 |
| Numbers.FieldOrZero | backend/routes/financials.js:51 | `x \|\| 0` on a body field: a missing field gives 0 and any other value is kept |
| Numbers.SumOfBounds | backend/routes/dashboard.js:22 | if every term lies between lo and hi, the sum lies between count times lo and count times hi |
| Recipes.ProfitMargin | backend/controllers/recipesController.js:69-72 | for a positive price, margin times price is (price minus cost) times 100, negative iff the cost exceeds the price, and at most 100 iff the cost is non-negative; otherwise 0 |
| Recipes.LinesOf | backend/controllers/recipesController.js:23 | exactly the lines of the recipe |
| Recipes.DropLinesOf | backend/controllers/recipesController.js:109 | exactly the lines of other recipes, in order |
| Recipes.ItemLine | backend/controllers/recipesController.js:54-63 | one line iff the item's ingredient exists, priced at its current cost times the quantity; none otherwise |
| Recipes.CostLines | backend/controllers/recipesController.js:53-65 | at most one line per item, all for the recipe, each priced from the table |
| Recipes.TotalCostAppend | backend/controllers/recipesController.js:58 | the running total over two runs of lines is the sum of their two totals |
| Recipes.InsertLines | backend/controllers/recipesController.js:52-66 | the loop fails iff the fault hits one of its items; otherwise it appends the reference lines and adds their cost to the running total |
| Recipes.LoopStep | backend/controllers/recipesController.js:53-65 | one turn of the loop contributes the item's line and cost ahead of the rest |
| Recipes.WithHeader | backend/controllers/recipesController.js:98-101 | the header of rows with the key is replaced and nothing else changes |
| Recipes.WithTotals | backend/controllers/recipesController.js:74-77 | the totals of rows with the key are replaced and nothing else changes |
| Recipes.CreateRecipe | backend/controllers/recipesController.js:36-87 | 500 with the store unchanged iff a statement fails; otherwise one row under the next key is appended, holding the posted header, the sum of the inserted lines and the margin from it, plus one line per known item |
| Recipes.FreshKeyRows | backend/controllers/recipesController.js:74-77 | setting the totals of a freshly appended row changes no other row |
| Recipes.UpdateRecipe | backend/controllers/recipesController.js:89-147 | 404 iff no row has the key; 500 with the store unchanged iff a statement fails; otherwise the old lines are replaced by the rebuilt ones and the row's header and totals are rewritten |
| Recipes.AllRecipes | backend/controllers/recipesController.js:3-11 | every recipe exactly once, newest key first, taking creation time to rise with the key |
| Recipes.Reversed | backend/controllers/recipesController.js:5 | the table in reverse order, a permutation of it |
| RecipeProofs.CreateKeepsTotalsConsistent | backend/controllers/recipesController.js:36-87 | any create, committed or rolled back, keeps the keys serial, every line attached to a recipe, and every total equal to the sum of its lines |
| RecipeProofs.UpdateKeepsTotalsConsistent | backend/controllers/recipesController.js:89-147 | the same for any update, committed, missing or rolled back |
| RecipeProofs.UpdateIsIdempotent | backend/controllers/recipesController.js:108-123 | applying the same update twice gives the store and the reply of one update |
| RecipeProofs.UpdateReplacesLineSet | backend/controllers/recipesController.js:108-126 | after an update the recipe's lines are exactly the rebuilt ones and the reply's total is their sum |
| RecipeProofs.KnownItems | backend/controllers/recipesController.js:55 | exactly the items whose ingredient exists |
| RecipeProofs.KnownItemsCounts | backend/controllers/recipesController.js:53-55 | each item whose ingredient exists is kept as often as it was sent, and no other item is kept |
| RecipeProofs.KnownItemsAppend | backend/controllers/recipesController.js:53 | the kept items stay in the order they were sent: filtering two runs of items filters each one |
| RecipeProofs.MissingIngredientsAreSkipped | backend/controllers/recipesController.js:54-55 | items with a missing ingredient insert nothing; every other item inserts one line |
| RecipeProofs.NoKnownItemsFullMargin | backend/controllers/recipesController.js:69-72 | a save with no known ingredient costs 0 and, for a positive price, has margin 100 |
| RecipeProofs.FlourScenario | backend/controllers/recipesController.js:54-71 | 500 units at 0.002 sold at 5 cost 1 and give margin 80 |
| RecipeDetail.FindRecipe | backend/controllers/recipesController.js:16-17 | None iff no recipe has the key |
| RecipeDetail.JoinLines | backend/controllers/recipesController.js:19-25 | at most the recipe's lines; every reply line is one of the recipe's lines joined to its existing ingredient, with the stored quantity and cost and the ingredient's name and unit; without the key column no line carries an ingredient key; with it every line names an existing ingredient |
| RecipeDetail.JoinLinesOfLiveLines | backend/controllers/recipesController.js:19-25 | when none of the recipe's ingredients was deleted, the reply has exactly one line per recipe line, in insertion order, each with that line's quantity and cost and its ingredient's name and unit |
| RecipeDetail.GetRecipeById | backend/controllers/recipesController.js:13-34 | 404 iff the key is missing; otherwise the row and its joined lines, none with an ingredient key; each line is one of the recipe's lines with its quantity, cost and its ingredient's name and unit, and when no ingredient was deleted there is one line per recipe line, in insertion order |
| RecipeDetail.GetRecipeByIdWithIngredient | backend/controllers/recipesController.js:13-34 | as above with `ri.ingredient_id` selected, so every line also names its existing ingredient |
| RecipeDetail.EditForm | frontend/src/pages/RecipesPage.tsx:117-123 | one form line per joined line, with its key, quantity, name, unit and stored cost |
| RecipeDetail.Submitted | frontend/src/pages/RecipesPage.tsx:207 | one item per form line, with its key and quantity |
| RecipeDetail.Resubmitted | frontend/src/pages/RecipesPage.tsx:207 | the items a loaded recipe is saved back with |
| RecipeDetail.KeylessItemsInsertNothing | backend/controllers/recipesController.js:54-55 | items without an ingredient key insert no line |
| RecipeDetail.ResaveAfterEditDropsLines | backend/controllers/recipesController.js:20 | as written, saving a loaded recipe unchanged deletes all its lines and sets its cost to 0 |
| RecipeDetail.EditDropsAnExistingLine | backend/controllers/recipesController.js:20 | a recipe with one line of an existing ingredient loses that line and goes from cost 1, margin 80 to cost 0, margin 100 |
| RecipeDetail.ResubmitJoinedLines | backend/controllers/recipesController.js:113-123 | with keys selected, a resave re-inserts each line whose ingredient exists, at the current price |
| RecipeDetail.RepricedLine | backend/controllers/recipesController.js:57 | a line priced at the current cost is re-inserted as itself |
| RecipeDetail.RepricedIsLinesOf | backend/controllers/recipesController.js:57 | when every line is priced at its ingredient's current cost, repricing gives back the recipe's lines |
| RecipeDetail.ResaveAfterFixedEditKeepsLines | frontend/src/pages/RecipesPage.tsx:118 | corrected: the recipe's lines after the resave are its existing lines at current prices, and the total is their sum |
| RecipeDetail.ResaveAfterFixedEditIsNoOp | frontend/src/pages/RecipesPage.tsx:118 | corrected, with prices current: the lines and the reply's totals come back exactly as stored |
| RecipeDetail.FixedEditRebuildsLines | frontend/src/pages/RecipesPage.tsx:117-123 | with prices current, the loaded form rebuilds exactly the stored lines |
| RecipeDetail.ResaveSameLinesIsNoOp | backend/controllers/recipesController.js:129-140 | items that rebuild the current line set leave the lines and the totals as they were |
| RecipeDetail.RowIsConsistent | backend/controllers/recipesController.js:74-77 | in a consistent store each row's totals match its lines |
| RecipeDetail.SameTotalsSameReply | backend/controllers/recipesController.js:129-140 | an update whose rebuilt total equals the stored one replies with the stored totals |
| Financials.BodyUser | backend/routes/financials.js:33 | a missing user or user 0 is user 1; any other user is kept |
| Financials.QueryUser | backend/routes/financials.js:10 | a missing `userId` query is user 1; any other value is kept |
| Financials.Keyed | backend/routes/financials.js:37-40 | exactly the records under (user, date) |
| Financials.Others | backend/routes/financials.js:47 | exactly the records under every other key |
| Financials.OfUser | backend/routes/financials.js:13 | exactly the user's records |
| Financials.Overwrite | backend/routes/financials.js:44-52 | every record under the key becomes the written one, in place; the rest are kept |
| Financials.Written | backend/routes/financials.js:44-66 | the record a save writes is under the posted key, with each amount as posted or 0 when missing |
| Financials.Post | backend/routes/financials.js:24-72 | 400 with the table unchanged iff no date is given; otherwise the stored record has the body's user (default 1), the date, and each amount or 0 |
| Financials.PostUpserts | backend/routes/financials.js:37-67 | after a save there is still one record per key: exactly the written one under the key, and the other keys' records as before |
| Financials.PostIsIdempotent | backend/routes/financials.js:42-54 | posting the same body twice leaves the table and the reply of one post |
| Financials.ValidKeyedAtMostOne | backend/routes/financials.js:37-40 | with one record per key, the check finds at most one record |
| Financials.ValidAfterOverwrite | backend/routes/financials.js:44-52 | the update keeps one record per key |
| Financials.InsertMissing | backend/routes/financials.js:55-67 | the insert of a new key keeps one record per key and adds exactly the written one |
| Financials.DateDescIsTotalPreorder | backend/routes/financials.js:13 | ordering by date is a total preorder |
| Financials.List | backend/routes/financials.js:6-21 | exactly the queried user's records (user 1 when absent), newest first |
| Financials.ListIsTheUsersRecords | backend/routes/financials.js:12-16 | a record is listed iff it belongs to the queried user |
| Financials.ValidHasNoRepeats | backend/routes/financials.js:37-40 | with one record per key no record appears twice |
| Financials.SubMultisetIsValid | backend/routes/financials.js:13 | any selection of the records keeps one record per key |
| BreakEven.BreakEvenPoint | backend/routes/dashboard.js:37-40 | for a positive margin, the point times the margin fraction is the fixed costs, and it is non-negative iff the costs are; otherwise 0 |
| BreakEven.BreakEvenFallsAsMarginRises | backend/routes/dashboard.js:39 | a better margin never raises the point for non-negative fixed costs |
| BreakEven.BreakEvenExample | backend/routes/dashboard.js:30 | 1000 of fixed costs at a 40% margin need 2500 of sales |
| BreakEven.SalesStatus | frontend/src/pages/BreakEvenPage.tsx:157-164 | a banner iff sales parse to a positive number; reached iff sales cover the point; the surplus is non-negative and the shortfall positive, each being the difference |
| BreakEven.NoFixedCostsAlwaysReached | frontend/src/pages/BreakEvenPage.tsx:157-164 | with no fixed costs any positive sales reach the point, with all of the sales as surplus |
| BreakEven.Payload | frontend/src/pages/BreakEvenPage.tsx:30-37 | no user is sent; the date as entered; each amount its parsed value or 0 |
| BreakEven.TotalFixedCosts | frontend/src/pages/BreakEvenPage.tsx:46 | all four inputs empty give 0; all four numbers give their sum |
| BreakEven.BlankInputCountsAsZero | frontend/src/pages/BreakEvenPage.tsx:46 | an empty or unparseable input adds the same as a typed 0, whatever the other inputs hold |
| BreakEven.CalculatedBreakEven | frontend/src/pages/BreakEvenPage.tsx:47 | for a positive margin the point times the margin is the fixed costs times 100; otherwise 0 |
| BreakEven.SavedFormMatchesCalculator | frontend/src/pages/BreakEvenPage.tsx:46 | saving the form stores, for user 1, fixed costs equal to the calculator's total and the sales it compares against |
| Dashboard.Latest | backend/routes/dashboard.js:11-18 | None iff the user has no record; otherwise one of the user's records with the greatest date |
| Dashboard.ListHeadIsLatest | backend/routes/dashboard.js:14-15 | the first row of the newest-first listing is the user's latest record |
| Dashboard.FixedCostsOf | backend/routes/dashboard.js:31-35 | the four fixed costs of the latest record, 0 without one |
| Dashboard.OwnedBy | backend/routes/dashboard.js:24 | exactly the user's recipes; recipes without an owner belong to nobody |
| Dashboard.OwnedByCounts | backend/routes/dashboard.js:22-24 | each of the user's recipes is kept as often as it is stored, so the average and the top list see every recipe exactly once |
| Dashboard.AvgMargin | backend/routes/dashboard.js:21-27 | 0 when the user owns no recipe |
| Dashboard.AverageIsMean | backend/routes/dashboard.js:21-27 | with no recipes the average is 0; otherwise the average times the count is the sum of the margins |
| Dashboard.AvgMarginWithin | backend/routes/dashboard.js:21-27 | the average margin lies within any bounds every one of the user's margins respects |
| Dashboard.TopRecipes | backend/routes/dashboard.js:43-50 | min(5, count) of the user's recipes, best margin first, none left out better than one kept |
| Dashboard.BestFive | backend/routes/dashboard.js:47-48 | the same for any list of recipes |
| Dashboard.TopProducts | backend/routes/dashboard.js:44 | at most five products |
| Dashboard.EarliestPeriods | backend/routes/dashboard.js:53-61 | min(6, count) of the user's records, oldest first, none left out older than one kept |
| Dashboard.FirstSix | backend/routes/dashboard.js:58-59 | the same for any list of records |
| Dashboard.Rows | backend/routes/dashboard.js:54-55 | one history row per record with its date, sales and fixed costs |
| Dashboard.HistoryIsEarliestSix | backend/routes/dashboard.js:52-61 | as written, the history has min(6, count) rows, oldest first, each among the rows of the user's records |
| Dashboard.RowsOfRecords | backend/routes/dashboard.js:54-58 | rows of records taken from the user's records in date order keep that order and are among the user's rows |
| Dashboard.HistoryOmitsLatest | backend/routes/dashboard.js:52-61 | as written, once a user has more than six records every history row is older than the current month |
| Dashboard.FirstSixPrecedeLatest | backend/routes/dashboard.js:58-59 | with one record per key and more than six records, the earliest six all precede the latest |
| Dashboard.RecentPeriods | backend/routes/dashboard.js:52 | corrected: min(6, count) of the user's records, oldest first, none left out newer than one kept |
| Dashboard.RecentHistoryIsLatestSix | backend/routes/dashboard.js:52 | corrected: the history has min(6, count) rows, oldest first, each among the rows of the user's records |
| Dashboard.LastSix | backend/routes/dashboard.js:52 | the same for any list, ending with its newest record |
| Dashboard.Reverse | backend/routes/dashboard.js:58 | the list reversed, a permutation of it |
| Dashboard.RecentHistoryEndsWithLatest | backend/routes/dashboard.js:52 | corrected: the history's last row is the current month, with the snapshot's fixed costs and sales |
| Dashboard.Get | backend/routes/dashboard.js:6-77 | the average margin and top list are those of the queried user (user 1 when absent); the break-even point is the formula applied to the reported fixed costs and average margin; the history is the earliest six as written, or the latest six when corrected; the lists have at most 5 and 6 rows |
| Dashboard.Assemble | backend/routes/dashboard.js:63-71 | for a positive margin the point times the margin fraction is the fixed costs, otherwise 0; the lists are passed through |
| Dashboard.SnapshotUsesLatestPeriod | backend/routes/dashboard.js:63-68 | no month iff the user has no record, and then costs and sales are 0; otherwise they come from a user's record with the greatest date |
| Agreement.StoredLinesSumShownCosts | backend/controllers/recipesController.js:57-58 | when the form priced its lines as the server does, the stored lines sum to the costs the form shows |
| Agreement.CreatedTotalIsEstimate | frontend/src/pages/RecipesPage.tsx:226 | a committed create of such a form stores exactly the estimate the form displayed |
| Agreement.SavedFormDrivesDashboard | frontend/src/pages/BreakEvenPage.tsx:30-47 | after saving the calculator for a month no earlier than user 1's others, the dashboard reports that month, the form's fixed costs and sales, and the calculator's break-even point |
| Agreement.BadgeShowsStoredMargin | frontend/src/pages/RecipesPage.tsx:435-436 | for a positive price the badge shows exactly the margin the server stores for the same cost, green iff that margin is at least 30 |

## Left out

- Networking, rendering, React state, images and blob storage are not modelled. Neither is authentication (authController.js is not part of this model).
- A `BEGIN` that itself fails is not modelled. The 500 replies of every route outside the create and update transaction are not modelled either: the ingredient routes, both financials routes, the dashboard, the recipe list and `getRecipeById`. That includes a non-numeric `:id` or `userId`, which makes the database reject the query. `Recipes.AllRecipes`, `RecipeDetail.GetRecipeById` and the other read routes therefore have no failure outcome.
- Numbers are exact reals; IEEE double rounding is left out. The form always computes `qty * targetFactor / baseFactor`, even with no unit chosen. For an ingredient in `lb`, entering 3 gives `3 * 453.592 / 453.592`, which is `2.9999999999999996` in doubles. So `Units.ConvertRoundTrip`, `RecipeForm.PricedLineKeepsAmount` and `RecipeForm.DefaultUnitKeepsQuantity` hold in the model's exact arithmetic, not for the program's doubles.
- `Recipes.TotalCost`, `Dashboard.History` and `Dashboard.RecentHistory` are definitions without a contract of their own, so they have no row. What they compute is stated by `Recipes.TotalCostAppend`, `Dashboard.HistoryIsEarliestSix` and `Dashboard.RecentHistoryIsLatestSix`.
- A failed create leaves the recipe key counter where it was. PostgreSQL would consume the value, so the keys after a failed create differ from the database's. Line rows carry no serial id of their own.
- A foreign-key failure when an ingredient that recipes still use is deleted is left out. The schema is not visible, so `Ingredients.Delete` always succeeds for an existing key.
- `user_id` of a new recipe comes from the schema's column default, which is not visible. It is the `ownerDefault` parameter of `Recipes.CreateRecipe`.
- Period dates are day ordinals. ISO `YYYY-MM-DD` strings order the same way, and date parsing and time zones are left out.
- Name ordering is lexicographic by character code. Database collations are left out.
- Ties under `ORDER BY` are resolved in an unspecified order by SQL. The contracts promise nothing about the order of tied rows.
- BreakEven.TotalFixedCosts: its own contract fixes only the all-empty and all-numbers cases. Mixed input is fixed by `BreakEven.BlankInputCountsAsZero`, and through `BreakEven.Payload` and `Financials.FixedCosts` by `BreakEven.SavedFormMatchesCalculator`.
- RecipeDetail.JoinLinesOfLiveLines, RecipeDetail.GetRecipeById and RecipeDetail.GetRecipeByIdWithIngredient: the line query has no `ORDER BY`, so PostgreSQL may return the lines in any order. The model assumes insertion order, so its "in order" clauses promise more than the database does.
- Recipes.AllRecipes: `ORDER BY created_at DESC` is modelled as newest key first. This assumes `created_at` rises strictly with the serial key. Two recipes created in the same instant are a tie, and SQL may return them either way.
- The recipe routes are modelled as receiving a JSON body whose `ingredients` is already an array of items. As written, the form posts multipart form data with `ingredients` as a `JSON.stringify` string (RecipesPage.tsx:202-207). The server installs only a JSON body parser (server.js:14), and the controller never parses that string (recipesController.js:37, 52-53), so a form save as written stores no lines. `Agreement.CreatedTotalIsEstimate`, `Agreement.StoredLinesSumShownCosts`, `RecipeDetail.Submitted`, `RecipeDetail.Resubmitted`, `RecipeDetail.ResaveAfterEditDropsLines` and the first finding below rest on this assumption.
- `toFixed` and `toLocaleString` formatting is left out, and so is JSON serialisation of numeric columns as strings.
- RecipeDetail.Submitted: requires finite quantities. `JSON.stringify` sends a NaN quantity as `null`, which is not modelled.
- Units.DimensionOf: a unit tag equal to an `Object.prototype` property name (such as `constructor`) is treated as unknown. In JavaScript such a tag would find an inherited value.
- Dashboard.Get: states the break-even point through `BreakEven.BreakEvenPoint` instead of as a product with the average margin. The product form is stated by `Dashboard.Assemble` and `BreakEven.BreakEvenPoint`, and the average by `Dashboard.AverageIsMean`. The history is stated as `Dashboard.History` or `Dashboard.RecentHistory`, whose contents `Dashboard.HistoryIsEarliestSix` and `Dashboard.RecentHistoryIsLatestSix` state.
- Dashboard.AvgMargin: its own contract states only the empty case. The mean is stated by `Dashboard.AverageIsMean` on `Dashboard.OwnedBy`, kept apart because a product of the average and the count in a function contract makes its callers' proofs too costly.
- Dashboard.TopProducts: only bounds the length. Which recipes appear, and in what order, is stated by `Dashboard.TopRecipes`.
- The server does no unit conversion and checks no units; only the form does.
- The recipe and ingredient routes are not scoped to an owner.
- History rows carry no per-period break-even point.
- `saveFinancials` and `getDashboardData` are imported by BreakEvenPage.tsx from services/api, but services/api.ts does not define them. The model takes `saveFinancials` to POST the calculator's payload as JSON to `/financials`, and `getDashboardData` to call `/dashboard` without a `userId`, so the dashboard is user 1's. `BreakEven.Payload` and `Agreement.SavedFormDrivesDashboard` rest on this.

## Findings

| source | as written | input that shows it | evidently intended | confidence | as-written member | corrected member |
|---|---|---|---|---|---|---|
| backend/controllers/recipesController.js:20 | the line query selects `ri.id` but not `ri.ingredient_id`, which the edit form reads (RecipesPage.tsx:118) | a recipe with one 500-unit line of an existing ingredient, opened for editing and saved unchanged | saving an unchanged recipe keeps its lines and totals | not executed | RecipeDetail.ResaveAfterEditDropsLines | RecipeDetail.ResaveAfterFixedEditIsNoOp |
| backend/routes/dashboard.js:52-61 | the "last 6 months" history is `ORDER BY period_date ASC LIMIT 6`, the earliest six | a user with records for seven consecutive months: the history shows months 1-6 and leaves out the current month 7 | the six most recent periods, oldest first, ending with the current month | not executed | Dashboard.HistoryOmitsLatest | Dashboard.RecentHistoryEndsWithLatest |

=== FILE: agreement.dfy ===
/** Where the client and the server compute the same figure twice: the
    recipe form's cost estimate against the total the save stores, and the
    break-even calculator against the dashboard it feeds. */
module Agreement {
  import opened Wrappers
  import opened Numbers
  import Ingredients
  import RecipeForm
  import Recipes
  import RecipeDetail
  import Financials
  import BreakEven
  import Dashboard

  /** A form line the server prices as the client did: its ingredient is in
      the table, its quantity and cost are numbers, and the cost is the
      table's price per unit times the quantity. */
  predicate LineMirrors(l: RecipeForm.FormLine, ings: Ingredients.Table) {
    && l.ingredientId.Some?
    && l.quantity.Finite?
    && l.cost.Finite?
    && Ingredients.Lookup(ings, l.ingredientId.value).Some?
    && l.cost.v == Ingredients.Lookup(ings, l.ingredientId.value).value.costPerUnit * l.quantity.v
  }

  ghost predicate Mirrors(lines: seq<RecipeForm.FormLine>, ings: Ingredients.Table) {
    forall k :: 0 <= k < |lines| ==> LineMirrors(lines[k], ings)
  }

  /** Each mirrored line becomes one stored line of the same cost, so the
      stored total is the sum of the costs the form shows. */
  lemma {:induction false} StoredLinesSumShownCosts(id: int, lines: seq<RecipeForm.FormLine>, ings: Ingredients.Table)
    requires Mirrors(lines, ings)
    ensures Recipes.TotalCost(Recipes.CostLines(id, RecipeDetail.Submitted(lines), ings))
            == SumOf(lines, RecipeForm.LineCost)
    decreases |lines|
  {
    if |lines| > 0 {
      var rest := lines[1..];
      MirroredHead(id, lines, ings);
      StoredLinesSumShownCosts(id, rest, ings);
      var reqs := RecipeDetail.Submitted(lines);
      var head := Recipes.ItemLine(id, reqs[0], ings);
      var tail := Recipes.CostLines(id, RecipeDetail.Submitted(rest), ings);
      assert Recipes.CostLines(id, reqs, ings) == head + tail;
      assert lines == [lines[0]] + rest;
      SumStep(head, tail, lines[0], rest);
    }
  }

  /** The first mirrored line is stored as one line of the cost the form
      shows, and the rest of the form still mirrors the table. */
  lemma MirroredHead(id: int, lines: seq<RecipeForm.FormLine>, ings: Ingredients.Table)
    requires |lines| > 0 && Mirrors(lines, ings)
    ensures var reqs := RecipeDetail.Submitted(lines);
            var head := Recipes.ItemLine(id, reqs[0], ings);
            && |head| == 1 && Recipes.LineCost(head[0]) == RecipeForm.LineCost(lines[0])
            && reqs[1..] == RecipeDetail.Submitted(lines[1..])
            && Mirrors(lines[1..], ings)
  {
    var rest := lines[1..];
    forall k | 0 <= k < |rest| ensures LineMirrors(rest[k], ings) {
      assert rest[k] == lines[k + 1];
    }
    assert LineMirrors(lines[0], ings);
  }

  /** One more mirrored line adds the same amount to both sums. */
  lemma SumStep(head: seq<Recipes.LineRow>, tail: seq<Recipes.LineRow>, x: RecipeForm.FormLine, rest: seq<RecipeForm.FormLine>)
    requires |head| == 1 && Recipes.LineCost(head[0]) == RecipeForm.LineCost(x)
    requires Recipes.TotalCost(tail) == SumOf(rest, RecipeForm.LineCost)
    ensures Recipes.TotalCost(head + tail) == SumOf([x] + rest, RecipeForm.LineCost)
  {
    SumOfAppend(head, tail, Recipes.LineCost);
    assert head == [head[0]];
    SumOfSingle(head[0], Recipes.LineCost);
    SumOfCons(x, rest, RecipeForm.LineCost);
  }

  /** Saving a new recipe whose lines mirror the server's prices stores
      exactly the estimated cost the form displayed. */
  lemma CreatedTotalIsEstimate(db: Recipes.Db, h: Recipes.Header, lines: seq<RecipeForm.FormLine>,
                               ownerDefault: Option<int>)
    requires Recipes.Valid(db)
    requires Mirrors(lines, db.ingredients)
    ensures var r := Recipes.CreateRecipe(db, h, RecipeDetail.Submitted(lines), ownerDefault, Recipes.NoFault);
            && r.1.Created?
            && RecipeForm.EstimatedCost(lines) == Finite(r.1.totalCost)
  {
    var r := Recipes.CreateRecipe(db, h, RecipeDetail.Submitted(lines), ownerDefault, Recipes.NoFault);
    assert r.1.Created?;
    RecipeForm.EstimatedCostIsSum(lines);
    StoredLinesSumShownCosts(r.1.id, lines, db.ingredients);
  }

  /** For a positive price the badge previews exactly the margin the server
      stores for the same cost. */
  lemma BadgeShowsStoredMargin(sale: real, cost: real)
    requires sale > 0.0
    ensures var b := RecipeForm.MarginBadge(true, Finite(sale), Finite(cost));
            && b.Some? && b.value.percent == Some(Recipes.ProfitMargin(sale, cost))
            && (b.value.green <==> Recipes.ProfitMargin(sale, cost) >= 30.0)
  {
    var b := RecipeForm.MarginBadge(true, Finite(sale), Finite(cost));
    var m := Recipes.ProfitMargin(sale, cost);
    var x := b.value.percent.value;
    assert x * sale == m * sale;
    assert (x - m) * sale == 0.0;
  }

  /** Once the calculator's form is saved for a month no earlier than any
      month user 1 has recorded, the dashboard of user 1 reports that month,
      the form's fixed costs and sales, and the break-even point the
      calculator shows for the dashboard's average margin. */
  lemma SavedFormDrivesDashboard(ps: seq<Financials.Period>, rs: seq<Recipes.RecipeRow>,
                                 f: BreakEven.Form, recentHistory: bool)
    requires Financials.Valid(ps)
    requires f.periodDate.Some?
    requires forall q :: q in ps && q.userId == 1 ==> q.date <= f.periodDate.value
    ensures var ps' := Financials.Post(ps, BreakEven.Payload(f)).0;
            var r := Dashboard.Get(ps', rs, None, recentHistory);
            && r.currentMonth == f.periodDate
            && r.fixedCosts == BreakEven.TotalFixedCosts(f)
            && r.totalSales == OrZero(f.totalSales)
            && r.breakEvenPoint == BreakEven.CalculatedBreakEven(f, r.avgMargin)
  {
    var post := BreakEven.Payload(f);
    var d := f.periodDate.value;
    var saved := Financials.Post(ps, post);
    var ps' := saved.0;
    var p := saved.1.period;
    BreakEven.SavedFormMatchesCalculator(ps, f);
    Financials.PostUpserts(ps, post);
    assert p in ps' && p.userId == 1;
    Dashboard.SnapshotUsesLatestPeriod(ps', rs, None, recentHistory);
    var r := Dashboard.Get(ps', rs, None, recentHistory);
    assert r.currentMonth.Some?;
    var q :| q in ps' && q.userId == 1 && q.date == r.currentMonth.value
             && (forall q' :: q' in ps' && q'.userId == 1 ==> q'.date <= q.date)
             && r.fixedCosts == Financials.FixedCosts(q) && r.totalSales == q.totalSales;
    assert p.date <= q.date;
    assert q in Financials.Keyed(ps', 1, d);
    assert q == p;
  }
}

=== FILE: break_even.dfy ===
/** The break-even formula shared by the dashboard route and the client
    calculator (BreakEvenPage.tsx): the form's fixed costs, the break-even
    point, the reached / not-yet status and the payload the form posts. */
module BreakEven {
  import opened Wrappers
  import opened Numbers
  import Financials

  /** Sales needed to cover `fixedCosts` at an average margin of
      `avgMargin` percent; 0 when the margin is not positive. */
  function BreakEvenPoint(fixedCosts: real, avgMargin: real): (r: real)
    ensures avgMargin > 0.0 ==> r * (avgMargin / 100.0) == fixedCosts
    ensures avgMargin > 0.0 ==> (r >= 0.0 <==> fixedCosts >= 0.0)
    ensures avgMargin <= 0.0 ==> r == 0.0
  {
    if avgMargin > 0.0 then fixedCosts / (avgMargin / 100.0) else 0.0
  }

  /** A better average margin never raises the break-even point of
      non-negative fixed costs. */
  lemma BreakEvenFallsAsMarginRises(fixedCosts: real, m1: real, m2: real)
    requires fixedCosts >= 0.0
    requires 0.0 < m1 <= m2
    ensures BreakEvenPoint(fixedCosts, m2) <= BreakEvenPoint(fixedCosts, m1)
  {
    var b1 := BreakEvenPoint(fixedCosts, m1);
    var b2 := BreakEvenPoint(fixedCosts, m2);
    var x1, x2 := m1 / 100.0, m2 / 100.0;
    assert b1 * x1 == fixedCosts == b2 * x2;
  }

  /** At a 40% margin, 1000 of fixed costs are covered by 2500 of sales. */
  lemma BreakEvenExample()
    ensures BreakEvenPoint(1000.0, 40.0) == 2500.0
  {
    assert BreakEvenPoint(1000.0, 40.0) * 0.4 == 1000.0;
  }

  /** The calculator form: each amount is the `parseFloat` of its input. */
  datatype Form = Form(
    periodDate: Option<int>,
    payroll: JsNum,
    rent: JsNum,
    utilities: JsNum,
    otherFixedCosts: JsNum,
    totalSales: JsNum)

  /** `totalFixedCosts`: the four inputs, each empty or unparseable one
      counted as 0. */
  function TotalFixedCosts(f: Form): (r: real)
    ensures f.payroll.NaN? && f.rent.NaN? && f.utilities.NaN? && f.otherFixedCosts.NaN? ==> r == 0.0
    ensures f.payroll.Finite? && f.rent.Finite? && f.utilities.Finite? && f.otherFixedCosts.Finite? ==>
              r == f.payroll.v + f.rent.v + f.utilities.v + f.otherFixedCosts.v
  {
    OrZero(f.payroll) + OrZero(f.rent) + OrZero(f.utilities) + OrZero(f.otherFixedCosts)
  }

  /** A blank or unparseable input adds the same as a typed 0, whatever the
      other inputs hold; with the all-numbers case of `TotalFixedCosts`
      this fixes the total for every mix of filled and empty inputs. */
  lemma BlankInputCountsAsZero(f: Form)
    ensures f.payroll.NaN? ==> TotalFixedCosts(f) == TotalFixedCosts(f.(payroll := Finite(0.0)))
    ensures f.rent.NaN? ==> TotalFixedCosts(f) == TotalFixedCosts(f.(rent := Finite(0.0)))
    ensures f.utilities.NaN? ==> TotalFixedCosts(f) == TotalFixedCosts(f.(utilities := Finite(0.0)))
    ensures f.otherFixedCosts.NaN? ==> TotalFixedCosts(f) == TotalFixedCosts(f.(otherFixedCosts := Finite(0.0)))
  {
  }

  /** `calculatedBEP`, from the average margin the dashboard reported. */
  function CalculatedBreakEven(f: Form, avgMargin: real): (r: real)
    ensures avgMargin > 0.0 ==> r * avgMargin == TotalFixedCosts(f) * 100.0
    ensures avgMargin <= 0.0 ==> r == 0.0
  {
    BreakEvenPoint(TotalFixedCosts(f), avgMargin)
  }

  /** The banner under the calculator. */
  datatype Status = Reached(surplus: real) | NotReached(shortfall: real)

  /** Shown only when the sales input parses to a positive number; reached
      when sales cover the break-even point, with the surplus or the
      shortfall as the amount. */
  function SalesStatus(f: Form, avgMargin: real): (r: Option<Status>)
    ensures r.Some? <==> f.totalSales.Finite? && f.totalSales.v > 0.0
    ensures r.Some? ==> (r.value.Reached? <==> f.totalSales.v >= CalculatedBreakEven(f, avgMargin))
    ensures r.Some? && r.value.Reached? ==>
              r.value.surplus == f.totalSales.v - CalculatedBreakEven(f, avgMargin) && r.value.surplus >= 0.0
    ensures r.Some? && r.value.NotReached? ==>
              r.value.shortfall == CalculatedBreakEven(f, avgMargin) - f.totalSales.v && r.value.shortfall > 0.0
  {
    match f.totalSales
    case NaN => None
    case Finite(sales) =>
      if sales > 0.0 then
        var bep := CalculatedBreakEven(f, avgMargin);
        if sales >= bep then Some(Reached(sales - bep)) else Some(NotReached(bep - sales))
      else None
  }

  /** With no fixed costs any positive sales reach the break-even point. */
  lemma NoFixedCostsAlwaysReached(f: Form, avgMargin: real)
    requires TotalFixedCosts(f) == 0.0
    requires f.totalSales.Finite? && f.totalSales.v > 0.0
    ensures SalesStatus(f, avgMargin) == Some(Reached(f.totalSales.v))
  {
    assert CalculatedBreakEven(f, avgMargin) == 0.0 by {
      if avgMargin > 0.0 {
        assert CalculatedBreakEven(f, avgMargin) * (avgMargin / 100.0) == 0.0;
      }
    }
  }

  /** handleSubmit's body: the period date as entered and every amount
      with unparseable values replaced by 0; no user is sent. */
  function Payload(f: Form): (r: Financials.PeriodPost)
    ensures r.userId.None? && r.periodDate == f.periodDate
    ensures r.payroll == Some(OrZero(f.payroll)) && r.rent == Some(OrZero(f.rent))
    ensures r.utilities == Some(OrZero(f.utilities)) && r.otherFixedCosts == Some(OrZero(f.otherFixedCosts))
    ensures r.totalSales == Some(OrZero(f.totalSales))
  {
    Financials.PeriodPost(None, f.periodDate, Some(OrZero(f.payroll)), Some(OrZero(f.rent)),
      Some(OrZero(f.utilities)), Some(OrZero(f.otherFixedCosts)), Some(OrZero(f.totalSales)))
  }

  /** Saving the form stores, for user 1, a period whose fixed costs are
      the total the calculator shows and whose sales are the sales it
      compares against. */
  lemma SavedFormMatchesCalculator(ps: seq<Financials.Period>, f: Form)
    requires f.periodDate.Some?
    ensures var r := Financials.Post(ps, Payload(f));
            && r.1.Saved?
            && r.1.period.userId == 1
            && r.1.period.date == f.periodDate.value
            && Financials.FixedCosts(r.1.period) == TotalFixedCosts(f)
            && r.1.period.totalSales == OrZero(f.totalSales)
  {
  }
}

=== FILE: dashboard.dfy ===
/** The dashboard snapshot (routes/dashboard.js): the latest period's fixed
    costs and sales, the average margin of the user's recipes, the
    break-even point, the five best-margin recipes and the sales history. */
module Dashboard {
  import opened Wrappers
  import opened Numbers
  import opened Sorting
  import Financials
  import Recipes
  import BreakEven

  type Period = Financials.Period
  type RecipeRow = Recipes.RecipeRow

  datatype TopProduct = TopProduct(name: string, profitMargin: real, salePrice: real)

  datatype HistoryRow = HistoryRow(date: int, totalSales: real, fixedCosts: real)

  datatype Snapshot = Snapshot(
    currentMonth: Option<int>,
    fixedCosts: real,
    avgMargin: real,
    breakEvenPoint: real,
    totalSales: real,
    topProducts: seq<TopProduct>,
    history: seq<HistoryRow>)

  function Min(a: int, b: int): int {
    if a <= b then a else b
  }

  /** The user's record with the greatest period date
      (`ORDER BY period_date DESC LIMIT 1`), if the user has any. */
  function Latest(ps: seq<Period>, user: int): (r: Option<Period>)
    ensures r.None? <==> forall q :: q in ps ==> q.userId != user
    ensures r.Some? ==> r.value in ps && r.value.userId == user
    ensures r.Some? ==> forall q :: q in ps && q.userId == user ==> q.date <= r.value.date
  {
    var l := Financials.List(ps, Some(user));
    ListHeadIsLatest(ps, user);
    if |l| == 0 then None else Some(l[0])
  }

  lemma ListHeadIsLatest(ps: seq<Period>, user: int)
    ensures var l := Financials.List(ps, Some(user));
            && (|l| == 0 <==> forall q :: q in ps ==> q.userId != user)
            && (|l| > 0 ==> l[0] in ps && l[0].userId == user)
            && (|l| > 0 ==> forall q :: q in ps && q.userId == user ==> q.date <= l[0].date)
  {
    var l := Financials.List(ps, Some(user));
    var mine := Financials.OfUser(ps, user);
    assert multiset(l) == multiset(mine);
    forall q | q in ps && q.userId == user ensures q in l {
      assert q in multiset(mine);
    }
    if |l| > 0 {
      assert l[0] in multiset(mine);
      forall q | q in ps && q.userId == user ensures q.date <= l[0].date {
        var k :| 0 <= k < |l| && l[k] == q;
      }
    }
  }

  /** The sum of a period's four fixed costs, 0 when there is no period
      (`parseFloat(x || 0)` on each field of an empty object). */
  function FixedCostsOf(p: Option<Period>): (r: real)
    ensures p.None? ==> r == 0.0
    ensures p.Some? ==> r == p.value.payroll + p.value.rent + p.value.utilities + p.value.otherFixedCosts
  {
    match p
    case None => 0.0
    case Some(q) => Financials.FixedCosts(q)
  }

  /** The user's recipes (`WHERE user_id = $1`); a recipe without an owner
      belongs to nobody. */
  function OwnedBy(rs: seq<RecipeRow>, user: int): (r: seq<RecipeRow>)
    ensures forall x :: x in r <==> x in rs && x.owner == Some(user)
  {
    if |rs| == 0 then []
    else
      assert rs == [rs[0]] + rs[1..];
      (if rs[0].owner == Some(user) then [rs[0]] else []) + OwnedBy(rs[1..], user)
  }

  /** Each of the user's recipes is kept as often as it occurs, so the
      average and the top list see every recipe exactly once. */
  lemma {:induction false} OwnedByCounts(rs: seq<RecipeRow>, user: int)
    ensures forall x :: multiset(OwnedBy(rs, user))[x] == if x.owner == Some(user) then multiset(rs)[x] else 0
  {
    if |rs| > 0 {
      OwnedByCounts(rs[1..], user);
      assert rs == [rs[0]] + rs[1..];
    }
  }

  function Margin(x: RecipeRow): real {
    x.profitMargin
  }

  /** `AVG(profit_margin)` over the user's recipes, 0 when there are none
      (AVG of no rows is NULL, and `NULL || 0` is 0). */
  function AvgMargin(rs: seq<RecipeRow>, user: int): (r: real)
    ensures (forall x :: x in rs ==> x.owner != Some(user)) ==> r == 0.0
  {
    Average(OwnedBy(rs, user))
  }

  /** The mean margin of `s`, 0 for no recipes. */
  function Average(s: seq<RecipeRow>): real {
    if |s| == 0 then 0.0 else SumOf(s, Margin) / |s| as real
  }

  /** The average times the number of recipes is the sum of their margins;
      with no recipes it is 0. */
  lemma AverageIsMean(s: seq<RecipeRow>)
    ensures |s| == 0 ==> Average(s) == 0.0
    ensures |s| > 0 ==> Average(s) * |s| as real == SumOf(s, Margin)
  {
  }

  /** The average lies within any bounds that hold for every margin. */
  lemma AvgMarginWithin(rs: seq<RecipeRow>, user: int, lo: real, hi: real)
    requires |OwnedBy(rs, user)| > 0
    requires forall x :: x in OwnedBy(rs, user) ==> lo <= x.profitMargin <= hi
    ensures lo <= AvgMargin(rs, user) <= hi
  {
    AverageWithin(OwnedBy(rs, user), lo, hi);
  }

  lemma AverageWithin(s: seq<RecipeRow>, lo: real, hi: real)
    requires |s| > 0
    requires forall x :: x in s ==> lo <= x.profitMargin <= hi
    ensures lo <= Average(s) <= hi
  {
    var n := |s| as real;
    var avg := Average(s);
    AverageIsMean(s);
    SumOfBounds(s, Margin, lo, hi);
    assert n * lo <= avg * n <= n * hi;
  }

  predicate MarginDesc(a: RecipeRow, b: RecipeRow) {
    a.profitMargin >= b.profitMargin
  }

  lemma MarginDescIsTotalPreorder()
    ensures TotalPreorder(MarginDesc)
  {
  }

  /** `ORDER BY profit_margin DESC LIMIT 5` over the user's recipes: at most
      five of them, best margin first, and none left out has a better margin
      than one kept. */
  function TopRecipes(rs: seq<RecipeRow>, user: int): (r: seq<RecipeRow>)
    ensures |r| == Min(5, |OwnedBy(rs, user)|)
    ensures multiset(r) <= multiset(OwnedBy(rs, user))
    ensures forall i, j :: 0 <= i < j < |r| ==> r[i].profitMargin >= r[j].profitMargin
    ensures forall x, i :: x in multiset(OwnedBy(rs, user)) - multiset(r) && 0 <= i < |r| ==>
              r[i].profitMargin >= x.profitMargin
  {
    BestFive(OwnedBy(rs, user))
  }

  function BestFive(s: seq<RecipeRow>): (r: seq<RecipeRow>)
    ensures |r| == Min(5, |s|)
    ensures multiset(r) <= multiset(s)
    ensures forall i, j :: 0 <= i < j < |r| ==> r[i].profitMargin >= r[j].profitMargin
    ensures forall x, i :: x in multiset(s) - multiset(r) && 0 <= i < |r| ==> r[i].profitMargin >= x.profitMargin
  {
    MarginDescIsTotalPreorder();
    SortedPrefix(s, MarginDesc, 5)
  }

  function Product(x: RecipeRow): TopProduct {
    TopProduct(x.header.name, x.profitMargin, x.header.salePrice)
  }

  function TopProducts(rs: seq<RecipeRow>, user: int): (r: seq<TopProduct>)
    ensures |r| <= 5
  {
    var top := TopRecipes(rs, user);
    seq(|top|, k requires 0 <= k < |top| => Product(top[k]))
  }

  predicate DateAsc(a: Period, b: Period) {
    a.date <= b.date
  }

  lemma DateAscIsTotalPreorder()
    ensures TotalPreorder(DateAsc)
  {
  }

  /** `ORDER BY period_date ASC LIMIT 6`: the user's six earliest records,
      oldest first. */
  function EarliestPeriods(ps: seq<Period>, user: int): (r: seq<Period>)
    ensures |r| == Min(6, |Financials.OfUser(ps, user)|)
    ensures multiset(r) <= multiset(Financials.OfUser(ps, user))
    ensures forall i, j :: 0 <= i < j < |r| ==> r[i].date <= r[j].date
    ensures forall x, i :: x in multiset(Financials.OfUser(ps, user)) - multiset(r) && 0 <= i < |r| ==>
              r[i].date <= x.date
  {
    FirstSix(Financials.OfUser(ps, user))
  }

  function FirstSix(s: seq<Period>): (r: seq<Period>)
    ensures |r| == Min(6, |s|)
    ensures multiset(r) <= multiset(s)
    ensures forall i, j :: 0 <= i < j < |r| ==> r[i].date <= r[j].date
    ensures forall x, i :: x in multiset(s) - multiset(r) && 0 <= i < |r| ==> r[i].date <= x.date
  {
    DateAscIsTotalPreorder();
    SortedPrefix(s, DateAsc, 6)
  }

  /** A history row: the period's sales and its four fixed costs added up. */
  function Row(p: Period): HistoryRow {
    HistoryRow(p.date, p.totalSales, Financials.FixedCosts(p))
  }

  function Rows(ps: seq<Period>): (r: seq<HistoryRow>)
    ensures |r| == |ps|
    ensures forall k :: 0 <= k < |ps| ==> r[k] == Row(ps[k])
  {
    seq(|ps|, k requires 0 <= k < |ps| => Row(ps[k]))
  }

  /** The history as written: the earliest six periods. */
  function History(ps: seq<Period>, user: int): seq<HistoryRow> {
    Rows(EarliestPeriods(ps, user))
  }

  /** Rows of records drawn from `mine`, oldest first, are oldest first and
      each one is among the rows of `mine`. */
  lemma RowsOfRecords(s: seq<Period>, mine: seq<Period>)
    requires multiset(s) <= multiset(mine)
    requires forall i, j :: 0 <= i < j < |s| ==> s[i].date <= s[j].date
    ensures |Rows(s)| == |s|
    ensures forall i, j :: 0 <= i < j < |Rows(s)| ==> Rows(s)[i].date <= Rows(s)[j].date
    ensures forall k :: 0 <= k < |Rows(s)| ==> Rows(s)[k] in Rows(mine)
  {
    var h, all := Rows(s), Rows(mine);
    forall k | 0 <= k < |h| ensures h[k] in all {
      assert s[k] in multiset(mine);
      var j :| 0 <= j < |mine| && mine[j] == s[k];
      assert all[j] == h[k];
    }
    forall i, j | 0 <= i < j < |h| ensures h[i].date <= h[j].date {
      assert h[i] == Row(s[i]) && h[j] == Row(s[j]);
    }
  }

  /** The history as written: up to six rows, oldest first, each among
      the rows of the user's records. */
  lemma HistoryIsEarliestSix(ps: seq<Period>, user: int)
    ensures var h := History(ps, user);
            && |h| == Min(6, |Financials.OfUser(ps, user)|)
            && (forall i, j :: 0 <= i < j < |h| ==> h[i].date <= h[j].date)
            && (forall k :: 0 <= k < |h| ==> h[k] in Rows(Financials.OfUser(ps, user)))
  {
    RowsOfRecords(EarliestPeriods(ps, user), Financials.OfUser(ps, user));
  }

  /** As written, once a user has more than six periods (one record per
      key), every history row is older than the current month, so the
      chart stops before the latest periods. */
  lemma HistoryOmitsLatest(ps: seq<Period>, user: int)
    requires Financials.Valid(ps)
    requires |Financials.OfUser(ps, user)| > 6
    ensures Latest(ps, user).Some?
    ensures forall h :: h in History(ps, user) ==> h.date < Latest(ps, user).value.date
  {
    var mine := Financials.OfUser(ps, user);
    assert mine[0] in mine;
    var latest := Latest(ps, user).value;
    Financials.OfUserIsSubMultiset(ps, user);
    Financials.SubMultisetIsValid(ps, mine);
    FirstSixPrecedeLatest(mine, user, latest);
    var early := EarliestPeriods(ps, user);
    forall h | h in History(ps, user) ensures h.date < latest.date {
      var k :| 0 <= k < |early| && Row(early[k]) == h;
      assert early[k] in early;
    }
  }

  /** Among more than six records of one user with distinct dates, the six
      earliest all come strictly before the latest one. */
  lemma FirstSixPrecedeLatest(s: seq<Period>, user: int, latest: Period)
    requires Financials.Valid(s)
    requires |s| > 6
    requires forall q :: q in s ==> q.userId == user && q.date <= latest.date
    ensures forall p :: p in FirstSix(s) ==> p.date < latest.date
  {
    DateAscIsTotalPreorder();
    var sorted := SortBy(s, DateAsc);
    var early := FirstSix(s);
    assert early == sorted[..6];
    Financials.SubMultisetIsValid(s, sorted);
    assert sorted[6] in multiset(s);
    forall p | p in early ensures p.date < latest.date {
      var k :| 0 <= k < 6 && sorted[k] == p;
      assert sorted[k] in multiset(s);
      assert !Financials.HasKey(sorted[6], sorted[k].userId, sorted[k].date);
    }
  }

  /** Corrected history: the user's six latest periods, oldest first. */
  function RecentPeriods(ps: seq<Period>, user: int): (r: seq<Period>)
    ensures |r| == Min(6, |Financials.OfUser(ps, user)|)
    ensures multiset(r) <= multiset(Financials.OfUser(ps, user))
    ensures forall i, j :: 0 <= i < j < |r| ==> r[i].date <= r[j].date
    ensures forall x, i :: x in multiset(Financials.OfUser(ps, user)) - multiset(r) && 0 <= i < |r| ==>
              x.date <= r[i].date
  {
    LastSix(Financials.OfUser(ps, user))
  }

  function LastSix(s: seq<Period>): (r: seq<Period>)
    ensures |r| == Min(6, |s|)
    ensures multiset(r) <= multiset(s)
    ensures forall i, j :: 0 <= i < j < |r| ==> r[i].date <= r[j].date
    ensures forall x, i :: x in multiset(s) - multiset(r) && 0 <= i < |r| ==> x.date <= r[i].date
    ensures |r| > 0 ==> r[|r| - 1] == SortBy(s, Financials.DateDesc)[0]
  {
    Financials.DateDescIsTotalPreorder();
    var top := SortedPrefix(s, Financials.DateDesc, 6);
    var r := Reverse(top);
    forall i, j | 0 <= i < j < |r| ensures r[i].date <= r[j].date {
      assert Financials.DateDesc(top[|top| - 1 - j], top[|top| - 1 - i]);
    }
    forall x, i | x in multiset(s) - multiset(r) && 0 <= i < |r| ensures x.date <= r[i].date {
      assert Financials.DateDesc(top[|top| - 1 - i], x);
    }
    r
  }

  function Reverse<T>(s: seq<T>): (r: seq<T>)
    ensures |r| == |s|
    ensures forall k :: 0 <= k < |s| ==> r[k] == s[|s| - 1 - k]
    ensures multiset(r) == multiset(s)
  {
    if |s| == 0 then []
    else
      assert s == [s[0]] + s[1..];
      Reverse(s[1..]) + [s[0]]
  }

  function RecentHistory(ps: seq<Period>, user: int): seq<HistoryRow> {
    Rows(RecentPeriods(ps, user))
  }

  /** The corrected history: up to six rows, oldest first, each among the
      rows of the user's records. */
  lemma RecentHistoryIsLatestSix(ps: seq<Period>, user: int)
    ensures var h := RecentHistory(ps, user);
            && |h| == Min(6, |Financials.OfUser(ps, user)|)
            && (forall i, j :: 0 <= i < j < |h| ==> h[i].date <= h[j].date)
            && (forall k :: 0 <= k < |h| ==> h[k] in Rows(Financials.OfUser(ps, user)))
  {
    RowsOfRecords(RecentPeriods(ps, user), Financials.OfUser(ps, user));
  }

  /** Corrected: the history ends with the current month, whose row carries
      the snapshot's fixed costs and sales. */
  lemma RecentHistoryEndsWithLatest(ps: seq<Period>, user: int)
    requires Latest(ps, user).Some?
    ensures var h := RecentHistory(ps, user);
            && |h| > 0
            && h[|h| - 1].date == Latest(ps, user).value.date
            && h[|h| - 1].fixedCosts == FixedCostsOf(Latest(ps, user))
            && h[|h| - 1].totalSales == Latest(ps, user).value.totalSales
  {
    var latest := Latest(ps, user).value;
    var mine := Financials.OfUser(ps, user);
    assert latest in mine;
    assert Financials.List(ps, Some(user)) == SortBy(mine, Financials.DateDesc);
    assert RecentPeriods(ps, user) == LastSix(mine);
  }

  /** GET /dashboard for `?userId=` (user 1 when absent). `recentHistory`
      selects the corrected history query; the route as written uses the
      earliest periods. */
  function Get(ps: seq<Period>, rs: seq<RecipeRow>, userQuery: Option<int>, recentHistory: bool): (r: Snapshot)
    ensures r.avgMargin == AvgMargin(rs, Financials.QueryUser(userQuery))
    ensures r.breakEvenPoint == BreakEven.BreakEvenPoint(r.fixedCosts, r.avgMargin)
    ensures r.topProducts == TopProducts(rs, Financials.QueryUser(userQuery))
    ensures r.history == if recentHistory then RecentHistory(ps, Financials.QueryUser(userQuery))
                         else History(ps, Financials.QueryUser(userQuery))
    ensures |r.topProducts| <= 5 && |r.history| <= 6
  {
    var user := Financials.QueryUser(userQuery);
    var history := if recentHistory then RecentHistory(ps, user) else History(ps, user);
    Assemble(Latest(ps, user), AvgMargin(rs, user), TopProducts(rs, user), history)
  }

  /** The reply built from the latest period, the average margin and the
      two lists. */
  function Assemble(latest: Option<Period>, avg: real, top: seq<TopProduct>, history: seq<HistoryRow>): (r: Snapshot)
    ensures r.avgMargin > 0.0 ==> r.breakEvenPoint * (r.avgMargin / 100.0) == r.fixedCosts
    ensures r.avgMargin <= 0.0 ==> r.breakEvenPoint == 0.0
    ensures r.topProducts == top && r.history == history
  {
    var fixed := FixedCostsOf(latest);
    Snapshot(
      if latest.Some? then Some(latest.value.date) else None,
      fixed,
      avg,
      BreakEven.BreakEvenPoint(fixed, avg),
      if latest.Some? then latest.value.totalSales else 0.0,
      top,
      history)
  }

  /** The snapshot's month, fixed costs and sales come from the user's
      record with the greatest period date, and are absent or 0 when the
      user has no record. */
  lemma SnapshotUsesLatestPeriod(ps: seq<Period>, rs: seq<RecipeRow>, userQuery: Option<int>, recentHistory: bool)
    ensures var r := Get(ps, rs, userQuery, recentHistory);
            var user := Financials.QueryUser(userQuery);
            && (r.currentMonth.None? <==> forall q :: q in ps ==> q.userId != user)
            && (r.currentMonth.None? ==> r.fixedCosts == 0.0 && r.totalSales == 0.0)
            && (r.currentMonth.Some? ==>
                  exists q :: q in ps && q.userId == user && q.date == r.currentMonth.value
                    && (forall q' :: q' in ps && q'.userId == user ==> q'.date <= q.date)
                    && r.fixedCosts == Financials.FixedCosts(q) && r.totalSales == q.totalSales)
  {
    var user := Financials.QueryUser(userQuery);
    var latest := Latest(ps, user);
    if latest.Some? {
      var q := latest.value;
      assert q in ps && q.userId == user;
    }
  }
}

=== FILE: financials.dfy ===
/** Monthly financial records (routes/financials.js): an upsert keyed by
    (user, period date) and the per-user listing, newest first. */
module Financials {
  import opened Wrappers
  import opened Numbers
  import opened Sorting

  /** One `financial_periods` row. A period date is a day ordinal: ISO
      `YYYY-MM-DD` dates compare as their ordinals do. */
  datatype Period = Period(
    userId: int,
    date: int,
    payroll: real,
    rent: real,
    utilities: real,
    otherFixedCosts: real,
    totalSales: real)

  /** A POST body. `None` is a field that is missing, null or empty. */
  datatype PeriodPost = PeriodPost(
    userId: Option<int>,
    periodDate: Option<int>,
    payroll: Option<real>,
    rent: Option<real>,
    utilities: Option<real>,
    otherFixedCosts: Option<real>,
    totalSales: Option<real>)

  datatype PostReply = BadRequest | Saved(period: Period)

  /** The four fixed-cost fields of a period, added up. */
  function FixedCosts(p: Period): real {
    p.payroll + p.rent + p.utilities + p.otherFixedCosts
  }

  predicate HasKey(p: Period, user: int, date: int) {
    p.userId == user && p.date == date
  }

  /** At most one record per (user, date). */
  ghost predicate Valid(ps: seq<Period>) {
    forall i, j :: 0 <= i < j < |ps| ==> !HasKey(ps[j], ps[i].userId, ps[i].date)
  }

  /** `userId || 1` on a JSON body: a missing, null or 0 user is user 1. */
  function BodyUser(u: Option<int>): (r: int)
    ensures u.None? ==> r == 1
    ensures u.Some? ==> r == if u.value == 0 then 1 else u.value
  {
    match u
    case None => 1
    case Some(v) => if v == 0 then 1 else v
  }

  /** `req.query.userId || 1`: a query value is text, so only a missing or
      empty one falls back to user 1 (the text "0" is kept). */
  function QueryUser(u: Option<int>): (r: int)
    ensures u.None? ==> r == 1
    ensures u.Some? ==> r == u.value
  {
    u.GetOr(1)
  }

  /** The records stored under (user, date), in table order. */
  function Keyed(ps: seq<Period>, user: int, date: int): (r: seq<Period>)
    ensures forall q :: q in r <==> q in ps && HasKey(q, user, date)
    ensures |r| <= |ps|
  {
    if |ps| == 0 then []
    else
      var init := ps[..|ps| - 1];
      assert ps == init + [ps[|ps| - 1]];
      Keyed(init, user, date) + (if HasKey(ps[|ps| - 1], user, date) then [ps[|ps| - 1]] else [])
  }

  /** The records stored under every other key, in table order. */
  function Others(ps: seq<Period>, user: int, date: int): (r: seq<Period>)
    ensures forall q :: q in r <==> q in ps && !HasKey(q, user, date)
  {
    if |ps| == 0 then []
    else
      var init := ps[..|ps| - 1];
      assert ps == init + [ps[|ps| - 1]];
      Others(init, user, date) + (if HasKey(ps[|ps| - 1], user, date) then [] else [ps[|ps| - 1]])
  }

  /** The records of one user, in table order (`WHERE user_id = $1`). */
  function OfUser(ps: seq<Period>, user: int): (r: seq<Period>)
    ensures forall q :: q in r <==> q in ps && q.userId == user
  {
    if |ps| == 0 then []
    else
      var init := ps[..|ps| - 1];
      assert ps == init + [ps[|ps| - 1]];
      OfUser(init, user) + (if ps[|ps| - 1].userId == user then [ps[|ps| - 1]] else [])
  }

  /** The row a POST writes: every missing or zero amount becomes 0. */
  function Written(user: int, date: int, post: PeriodPost): (r: Period)
    ensures HasKey(r, user, date)
    ensures r.payroll == post.payroll.GetOr(0.0) && r.rent == post.rent.GetOr(0.0)
    ensures r.utilities == post.utilities.GetOr(0.0) && r.otherFixedCosts == post.otherFixedCosts.GetOr(0.0)
    ensures r.totalSales == post.totalSales.GetOr(0.0)
  {
    Period(user, date, FieldOrZero(post.payroll), FieldOrZero(post.rent),
           FieldOrZero(post.utilities), FieldOrZero(post.otherFixedCosts), FieldOrZero(post.totalSales))
  }

  /** `UPDATE … WHERE user_id = $6 AND period_date = $7`: every record under
      the key of `p` is replaced by `p`. */
  function Overwrite(ps: seq<Period>, p: Period): (r: seq<Period>)
    ensures |r| == |ps|
    ensures forall k :: 0 <= k < |ps| ==> r[k] == if HasKey(ps[k], p.userId, p.date) then p else ps[k]
  {
    if |ps| == 0 then []
    else
      var init := ps[..|ps| - 1];
      var last := ps[|ps| - 1];
      Overwrite(init, p) + [if HasKey(last, p.userId, p.date) then p else last]
  }

  /** POST /financials: 400 without a period date; otherwise the record
      under (user, date) is updated when one exists and inserted when none
      does, and the reply carries the record written. */
  function Post(ps: seq<Period>, post: PeriodPost): (r: (seq<Period>, PostReply))
    ensures r.1.BadRequest? <==> post.periodDate.None?
    ensures r.1.BadRequest? ==> r.0 == ps
    ensures r.1.Saved? ==>
              var p := r.1.period;
              && p.userId == BodyUser(post.userId)
              && p.date == post.periodDate.value
              && p.payroll == FieldOrZero(post.payroll)
              && p.rent == FieldOrZero(post.rent)
              && p.utilities == FieldOrZero(post.utilities)
              && p.otherFixedCosts == FieldOrZero(post.otherFixedCosts)
              && p.totalSales == FieldOrZero(post.totalSales)
              && p in r.0
  {
    match post.periodDate
    case None => (ps, BadRequest)
    case Some(date) =>
      var p := Written(BodyUser(post.userId), date, post);
      if |Keyed(ps, p.userId, date)| > 0 then
        var q := Keyed(ps, p.userId, date)[0];
        assert q in Keyed(ps, p.userId, date);
        var k :| 0 <= k < |ps| && ps[k] == q;
        assert Overwrite(ps, p)[k] == p;
        (Overwrite(ps, p), Saved(p))
      else
        (ps + [p], Saved(p))
  }

  lemma {:induction false} OverwriteKeepsOthers(ps: seq<Period>, p: Period)
    ensures Others(Overwrite(ps, p), p.userId, p.date) == Others(ps, p.userId, p.date)
  {
    if |ps| > 0 {
      var init := ps[..|ps| - 1];
      var w := Overwrite(ps, p);
      assert w[..|w| - 1] == Overwrite(init, p);
      OverwriteKeepsOthers(init, p);
    }
  }

  lemma {:induction false} OverwriteKeyed(ps: seq<Period>, p: Period)
    ensures |Keyed(Overwrite(ps, p), p.userId, p.date)| == |Keyed(ps, p.userId, p.date)|
    ensures forall q :: q in Keyed(Overwrite(ps, p), p.userId, p.date) ==> q == p
  {
    var w := Overwrite(ps, p);
    forall q | q in Keyed(w, p.userId, p.date) ensures q == p {
      var k :| 0 <= k < |w| && w[k] == q;
    }
    if |ps| > 0 {
      var init := ps[..|ps| - 1];
      assert w[..|w| - 1] == Overwrite(init, p);
      OverwriteKeyed(init, p);
    }
  }

  lemma {:induction false} ValidKeyedAtMostOne(ps: seq<Period>, user: int, date: int)
    requires Valid(ps)
    ensures |Keyed(ps, user, date)| <= 1
  {
    if |ps| > 0 {
      var init := ps[..|ps| - 1];
      var last := ps[|ps| - 1];
      assert Valid(init);
      ValidKeyedAtMostOne(init, user, date);
      if HasKey(last, user, date) {
        forall q | q in init ensures !HasKey(q, user, date) {
          var i :| 0 <= i < |init| && init[i] == q;
          assert !HasKey(ps[|ps| - 1], ps[i].userId, ps[i].date);
        }
        NoneKeyed(init, user, date);
      }
    }
  }

  lemma NoneKeyed(ps: seq<Period>, user: int, date: int)
    requires forall q :: q in ps ==> !HasKey(q, user, date)
    ensures Keyed(ps, user, date) == []
  {
  }

  lemma ValidAfterOverwrite(ps: seq<Period>, p: Period)
    requires Valid(ps)
    ensures Valid(Overwrite(ps, p))
  {
    var w := Overwrite(ps, p);
    forall i, j | 0 <= i < j < |w| ensures !HasKey(w[j], w[i].userId, w[i].date) {
      assert !HasKey(ps[j], ps[i].userId, ps[i].date);
    }
  }

  /** After a successful POST the table still holds one record per key,
      exactly one record under the posted key — the one written — and the
      records under every other key, in the same order, as before. */
  lemma PostUpserts(ps: seq<Period>, post: PeriodPost)
    requires Valid(ps)
    requires post.periodDate.Some?
    ensures var r := Post(ps, post);
            var user := BodyUser(post.userId);
            var date := post.periodDate.value;
            && r.1.Saved?
            && Valid(r.0)
            && Keyed(r.0, user, date) == [r.1.period]
            && Others(r.0, user, date) == Others(ps, user, date)
  {
    var p := Written(BodyUser(post.userId), post.periodDate.value, post);
    if |Keyed(ps, p.userId, p.date)| > 0 {
      UpdateExisting(ps, p);
    } else {
      InsertMissing(ps, p);
    }
  }

  lemma UpdateExisting(ps: seq<Period>, p: Period)
    requires Valid(ps)
    requires |Keyed(ps, p.userId, p.date)| > 0
    ensures var w := Overwrite(ps, p);
            && Valid(w)
            && Keyed(w, p.userId, p.date) == [p]
            && Others(w, p.userId, p.date) == Others(ps, p.userId, p.date)
  {
    ValidAfterOverwrite(ps, p);
    OverwriteKeepsOthers(ps, p);
    ValidKeyedAtMostOne(ps, p.userId, p.date);
    OverwriteSingle(ps, p);
  }

  lemma OverwriteSingle(ps: seq<Period>, p: Period)
    requires |Keyed(ps, p.userId, p.date)| == 1
    ensures Keyed(Overwrite(ps, p), p.userId, p.date) == [p]
  {
    OverwriteKeyed(ps, p);
    var ks := Keyed(Overwrite(ps, p), p.userId, p.date);
    assert ks[0] in ks;
  }

  lemma InsertMissing(ps: seq<Period>, p: Period)
    requires Valid(ps)
    requires |Keyed(ps, p.userId, p.date)| == 0
    ensures var w := ps + [p];
            && Valid(w)
            && Keyed(w, p.userId, p.date) == [p]
            && Others(w, p.userId, p.date) == Others(ps, p.userId, p.date)
  {
    AppendKeyed(ps, p);
    AppendFreshKeepsValid(ps, p);
  }

  lemma AppendKeyed(ps: seq<Period>, p: Period)
    ensures Keyed(ps + [p], p.userId, p.date) == Keyed(ps, p.userId, p.date) + [p]
    ensures Others(ps + [p], p.userId, p.date) == Others(ps, p.userId, p.date)
  {
    var w := ps + [p];
    assert w[..|w| - 1] == ps;
  }

  lemma AppendFreshKeepsValid(ps: seq<Period>, p: Period)
    requires Valid(ps)
    requires |Keyed(ps, p.userId, p.date)| == 0
    ensures Valid(ps + [p])
  {
    var w := ps + [p];
    forall i, j | 0 <= i < j < |w| ensures !HasKey(w[j], w[i].userId, w[i].date) {
      if j == |ps| {
        assert ps[i] !in Keyed(ps, p.userId, p.date);
      } else {
        assert w[i] == ps[i] && w[j] == ps[j];
      }
    }
  }

  lemma OverwriteSoleRecord(ps: seq<Period>, p: Period)
    requires Keyed(ps, p.userId, p.date) == [p]
    ensures Overwrite(ps, p) == ps
  {
    forall k | 0 <= k < |ps| ensures Overwrite(ps, p)[k] == ps[k] {
      if HasKey(ps[k], p.userId, p.date) {
        assert ps[k] in Keyed(ps, p.userId, p.date);
      }
    }
  }

  /** Posting the same body twice leaves the table as one post did. */
  lemma PostIsIdempotent(ps: seq<Period>, post: PeriodPost)
    requires Valid(ps)
    ensures var once := Post(ps, post);
            Post(once.0, post) == once
  {
    if post.periodDate.Some? {
      var once := Post(ps, post);
      PostUpserts(ps, post);
      var p := once.1.period;
      OverwriteSoleRecord(once.0, p);
    }
  }

  predicate DateDesc(a: Period, b: Period) {
    a.date >= b.date
  }

  lemma DateDescIsTotalPreorder()
    ensures TotalPreorder(DateDesc)
  {
  }

  /** GET /financials: the user's records, latest period first. */
  function List(ps: seq<Period>, userQuery: Option<int>): (r: seq<Period>)
    ensures multiset(r) == multiset(OfUser(ps, QueryUser(userQuery)))
    ensures forall i, j :: 0 <= i < j < |r| ==> r[i].date >= r[j].date
  {
    DateDescIsTotalPreorder();
    SortBy(OfUser(ps, QueryUser(userQuery)), DateDesc)
  }

  /** The listing holds exactly the records of the requested user (user 1
      when none is given). */
  lemma ListIsTheUsersRecords(ps: seq<Period>, userQuery: Option<int>, q: Period)
    ensures q in List(ps, userQuery) <==> q in ps && q.userId == QueryUser(userQuery)
    ensures userQuery.None? ==> (q in List(ps, userQuery) <==> q in ps && q.userId == 1)
  {
    var r := List(ps, userQuery);
    assert q in r <==> q in multiset(r);
    assert q in OfUser(ps, QueryUser(userQuery)) <==> q in multiset(OfUser(ps, QueryUser(userQuery)));
  }

  lemma {:induction false} OfUserIsSubMultiset(ps: seq<Period>, user: int)
    ensures multiset(OfUser(ps, user)) <= multiset(ps)
  {
    if |ps| > 0 {
      var init := ps[..|ps| - 1];
      OfUserIsSubMultiset(init, user);
      assert ps == init + [ps[|ps| - 1]];
    }
  }

  /** A table with one record per key holds no record twice. */
  lemma {:induction false} ValidHasNoRepeats(ps: seq<Period>, v: Period)
    requires Valid(ps)
    ensures multiset(ps)[v] <= 1
  {
    if |ps| > 0 {
      var init := ps[..|ps| - 1];
      assert ps == init + [ps[|ps| - 1]];
      assert Valid(init);
      ValidHasNoRepeats(init, v);
      if ps[|ps| - 1] == v {
        forall k | 0 <= k < |init| ensures init[k] != v {
          assert !HasKey(ps[|ps| - 1], ps[k].userId, ps[k].date);
        }
        assert v !in multiset(init);
      }
    }
  }

  /** Any selection of the records of a table with one record per key also
      has one record per key. */
  lemma SubMultisetIsValid(ps: seq<Period>, s: seq<Period>)
    requires Valid(ps)
    requires multiset(s) <= multiset(ps)
    ensures Valid(s)
  {
    forall i, j | 0 <= i < j < |s| ensures !HasKey(s[j], s[i].userId, s[i].date) {
      assert s[i] != s[j] by {
        ValidHasNoRepeats(ps, s[i]);
        assert s == s[..j] + s[j..];
        assert s[i] in multiset(s[..j]) && s[j] in multiset(s[j..]);
      }
      assert s[i] in multiset(ps) && s[j] in multiset(ps);
      var a :| 0 <= a < |ps| && ps[a] == s[i];
      var b :| 0 <= b < |ps| && ps[b] == s[j];
      if a < b {
        assert !HasKey(ps[b], ps[a].userId, ps[a].date);
      } else {
        assert !HasKey(ps[a], ps[b].userId, ps[b].date);
      }
    }
  }
}

=== FILE: ingredients.dfy ===
/** The ingredient table and its controller: list by name, create, update
    and delete with not-found replies. Recipe saves read `costPerUnit` from
    this table. */
module Ingredients {
  import opened Wrappers
  import opened Sorting

  datatype Ingredient = Ingredient(id: int, name: string, unit: string, costPerUnit: real, supplier: Option<string>)

  /** The four columns a create or an update writes. */
  datatype Fields = Fields(name: string, unit: string, costPerUnit: real, supplier: Option<string>)

  /** Rows in insertion order; `nextId` is the next value of the serial key. */
  datatype Table = Table(rows: seq<Ingredient>, nextId: int)

  /** A controller reply: the 404 branch, or the success payload. */
  datatype Reply<T> = NotFound | Ok(value: T)

  /** Serial keys only grow, so ids increase along the table and stay
      below the next key. */
  ghost predicate Valid(t: Table) {
    && (forall i, j :: 0 <= i < j < |t.rows| ==> t.rows[i].id < t.rows[j].id)
    && (forall i :: 0 <= i < |t.rows| ==> t.rows[i].id < t.nextId)
  }

  function Row(id: int, f: Fields): Ingredient {
    Ingredient(id, f.name, f.unit, f.costPerUnit, f.supplier)
  }

  /** `WHERE id = $1`: the row with key `id`, if any. */
  function Find(rows: seq<Ingredient>, id: int): (r: Option<Ingredient>)
    ensures r.Some? ==> r.value in rows && r.value.id == id
    ensures r.None? <==> forall k :: 0 <= k < |rows| ==> rows[k].id != id
  {
    if |rows| == 0 then None
    else if rows[0].id == id then Some(rows[0])
    else Find(rows[1..], id)
  }

  function Lookup(t: Table, id: int): Option<Ingredient> {
    Find(t.rows, id)
  }

  /** `ORDER BY name ASC`. */
  predicate NameLe(a: Ingredient, b: Ingredient) {
    StrLe(a.name, b.name)
  }

  lemma NameLeIsTotalPreorder()
    ensures TotalPreorder(NameLe)
  {
    forall a, b ensures NameLe(a, b) || NameLe(b, a) {
      StrLeTotal(a.name, b.name);
    }
    forall a, b, c | NameLe(a, b) && NameLe(b, c) ensures NameLe(a, c) {
      StrLeTransitive(a.name, b.name, c.name);
    }
  }

  /** getAllIngredients: every row, ordered by name. */
  function List(t: Table): (r: seq<Ingredient>)
    ensures multiset(r) == multiset(t.rows)
    ensures forall i, j :: 0 <= i < j < |r| ==> StrLe(r[i].name, r[j].name)
  {
    NameLeIsTotalPreorder();
    SortBy(t.rows, NameLe)
  }

  /** createIngredient: inserts one row under a fresh serial key. */
  function Create(t: Table, f: Fields): (r: (Table, Ingredient))
    requires Valid(t)
    ensures Valid(r.0)
    ensures r.1 == Row(r.1.id, f)
    ensures Lookup(t, r.1.id).None? && Lookup(r.0, r.1.id) == Some(r.1)
    ensures forall id :: id != r.1.id ==> Lookup(r.0, id) == Lookup(t, id)
    ensures |r.0.rows| == |t.rows| + 1
  {
    var row := Row(t.nextId, f);
    var t' := Table(t.rows + [row], t.nextId + 1);
    FindAppend(t.rows, row);
    (t', row)
  }

  lemma {:induction false} FindAppend(rows: seq<Ingredient>, row: Ingredient)
    requires forall k :: 0 <= k < |rows| ==> rows[k].id != row.id
    ensures Find(rows + [row], row.id) == Some(row)
    ensures forall id :: id != row.id ==> Find(rows + [row], id) == Find(rows, id)
  {
    if |rows| > 0 {
      assert (rows + [row])[1..] == rows[1..] + [row];
      FindAppend(rows[1..], row);
    }
  }

  /** updateIngredient: rewrites the four columns of row `id`; 404 when no
      row has that key. */
  function Update(t: Table, id: int, f: Fields): (r: Reply<(Table, Ingredient)>)
    requires Valid(t)
    ensures r.NotFound? <==> Lookup(t, id).None?
    ensures r.Ok? ==> Valid(r.value.0) && r.value.1 == Row(id, f)
    ensures r.Ok? ==> Lookup(r.value.0, id) == Some(Row(id, f))
    ensures r.Ok? ==> forall other :: other != id ==> Lookup(r.value.0, other) == Lookup(t, other)
    ensures r.Ok? ==> |r.value.0.rows| == |t.rows|
  {
    if Lookup(t, id).None? then NotFound
    else
      var rows := Replace(t.rows, id, Row(id, f));
      Ok((Table(rows, t.nextId), Row(id, f)))
  }

  function Replace(rows: seq<Ingredient>, id: int, row: Ingredient): (r: seq<Ingredient>)
    requires row.id == id
    ensures |r| == |rows|
    ensures forall k :: 0 <= k < |r| ==> r[k].id == rows[k].id
    ensures Find(rows, id).Some? ==> Find(r, id) == Some(row)
    ensures forall other :: other != id ==> Find(r, other) == Find(rows, other)
  {
    if |rows| == 0 then []
    else if rows[0].id == id then [row] + Replace(rows[1..], id, row)
    else [rows[0]] + Replace(rows[1..], id, row)
  }

  /** deleteIngredient: removes row `id`; 404 when no row has that key. */
  function Delete(t: Table, id: int): (r: Reply<Table>)
    requires Valid(t)
    ensures r.NotFound? <==> Lookup(t, id).None?
    ensures r.Ok? ==> Valid(r.value) && Lookup(r.value, id).None?
    ensures r.Ok? ==> forall other :: other != id ==> Lookup(r.value, other) == Lookup(t, other)
    ensures r.Ok? ==> |r.value.rows| == |t.rows| - 1
  {
    if Lookup(t, id).None? then NotFound
    else
      var rows := Remove(t.rows, id);
      assert forall i :: 0 <= i < |rows| ==> rows[i] in t.rows;
      Ok(Table(rows, t.nextId))
  }

  function Remove(rows: seq<Ingredient>, id: int): (r: seq<Ingredient>)
    requires forall i, j :: 0 <= i < j < |rows| ==> rows[i].id < rows[j].id
    ensures forall i, j :: 0 <= i < j < |r| ==> r[i].id < r[j].id
    ensures forall x :: x in r ==> x in rows
    ensures Find(r, id).None?
    ensures forall other :: other != id ==> Find(r, other) == Find(rows, other)
    ensures |r| == if Find(rows, id).Some? then |rows| - 1 else |rows|
  {
    if |rows| == 0 then []
    else if rows[0].id == id then
      assert Find(rows[1..], id).None?;
      rows[1..]
    else [rows[0]] + Remove(rows[1..], id)
  }
}

=== FILE: numbers.dfy ===
/** Number helpers shared by the client and server models.

    All amounts are exact reals. A JavaScript number that the model must tell
    apart from a real value (the result of `parseFloat` on text that is not a
    number, or of arithmetic on `undefined`) is `NaN`. */
module Numbers {
  import opened Wrappers

  /** A JavaScript number as the client code uses it: finite or NaN. */
  datatype JsNum = Finite(v: real) | NaN

  /** JavaScript `+` restricted to finite values and NaN. */
  function Add(a: JsNum, b: JsNum): (r: JsNum)
    ensures r.NaN? <==> a.NaN? || b.NaN?
    ensures r.Finite? ==> r.v == a.v + b.v
  {
    if a.Finite? && b.Finite? then Finite(a.v + b.v) else NaN
  }

  /** The client idiom `parseFloat(x) || 0`: NaN and 0 are both falsy, so
      both become 0; every other value passes through. */
  function OrZero(p: JsNum): (r: real)
    ensures p.NaN? ==> r == 0.0
    ensures p.Finite? ==> r == p.v
  {
    match p
    case NaN => 0.0
    case Finite(v) => if v == 0.0 then 0.0 else v
  }

  /** The server idiom `x || 0` on a JSON body field: a missing, null or 0
      field becomes 0, every other number passes through. */
  function FieldOrZero(f: Option<real>): (r: real)
    ensures f.None? ==> r == 0.0
    ensures f.Some? ==> r == f.value
  {
    match f
    case None => 0.0
    case Some(v) => if v == 0.0 then 0.0 else v
  }

  /** Sum of `f` over `s`, accumulated left to right as `Array.reduce` and a
      running `total +=` do. */
  function SumOf<T>(s: seq<T>, f: T -> real): real
  {
    if |s| == 0 then 0.0 else SumOf(s[..|s| - 1], f) + f(s[|s| - 1])
  }

  lemma {:induction false} SumOfAppend<T>(a: seq<T>, b: seq<T>, f: T -> real)
    ensures SumOf(a + b, f) == SumOf(a, f) + SumOf(b, f)
    decreases |b|
  {
    if |b| == 0 {
      assert a + b == a;
    } else {
      var b' := b[..|b| - 1];
      assert (a + b)[..|a + b| - 1] == a + b';
      SumOfAppend(a, b', f);
    }
  }

  /** Summing from the front gives the same total as the left fold. */
  lemma {:induction false} SumOfCons<T>(x: T, s: seq<T>, f: T -> real)
    ensures SumOf([x] + s, f) == f(x) + SumOf(s, f)
  {
    SumOfAppend([x], s, f);
    assert [x][..0] == [];
  }

  /** The sum is the removed term plus the sum of the rest. */
  lemma SumOfRemoveAt<T>(b: seq<T>, k: nat, f: T -> real)
    requires k < |b|
    ensures SumOf(b, f) == f(b[k]) + SumOf(b[..k] + b[k + 1..], f)
  {
    var x, left, right := b[k], b[..k], b[k + 1..];
    var front := b[..k + 1];
    assert front == left + [x];
    assert b == front + right;
    SumOfAppend(front, right, f);
    SumOfAppend(left, [x], f);
    SumOfAppend(left, right, f);
    SumOfSingle(x, f);
  }

  lemma SumOfSingle<T>(x: T, f: T -> real)
    ensures SumOf([x], f) == f(x)
  {
    assert [x][..0] == [];
  }

  /** Every term between `lo` and `hi` bounds the sum by `|s|` times each. */
  lemma {:induction false} SumOfBounds<T>(s: seq<T>, f: T -> real, lo: real, hi: real)
    requires forall x :: x in s ==> lo <= f(x) <= hi
    ensures |s| as real * lo <= SumOf(s, f) <= |s| as real * hi
    decreases |s|
  {
    if |s| > 0 {
      var init, last := s[..|s| - 1], s[|s| - 1];
      forall x | x in init ensures lo <= f(x) <= hi {
        var i :| 0 <= i < |init| && init[i] == x;
        assert s[i] == x;
      }
      SumOfBounds(init, f, lo, hi);
      assert lo <= f(last) <= hi;
      assert SumOf(s, f) == SumOf(init, f) + f(last);
      var n := |init|;
      assert |s| == n + 1;
      ScaleStep(n, lo);
      ScaleStep(n, hi);
    }
  }

  lemma ScaleStep(n: nat, c: real)
    ensures (n + 1) as real * c == n as real * c + c
  {
  }
}

=== FILE: recipe_detail.dfy ===
/** Reading one recipe back (getRecipeById) and the client's edit flow that
    loads it into the form and saves it again. The query joins each line to
    its ingredient but does not select the line's ingredient key, so the
    form's lines carry none and the save skips every one of them. */
module RecipeDetail {
  import opened Wrappers
  import opened Numbers
  import Ingredients
  import opened Recipes
  import RecipeForm
  import RecipeProofs

  /** One joined line. `ingredientId` is None when the query does not
      select `ri.ingredient_id`. */
  datatype DetailLine = DetailLine(ingredientId: Option<int>, name: string, quantity: real, unit: string, costContribution: real)

  datatype Detail = Detail(recipe: RecipeRow, lines: seq<DetailLine>)

  /** `SELECT * FROM recipes WHERE id = $1`, first row. */
  function FindRecipe(rs: seq<RecipeRow>, id: int): (r: Option<RecipeRow>)
    ensures r.None? <==> !HasRecipe(rs, id)
    ensures r.Some? ==> r.value in rs && r.value.id == id
  {
    if |rs| == 0 then None
    else if rs[0].id == id then Some(rs[0])
    else
      assert forall k :: 0 < k < |rs| ==> rs[k] == rs[1..][k - 1];
      FindRecipe(rs[1..], id)
  }

  /** The reply line for recipe line `l` joined to its ingredient `ing`:
      name and unit are the ingredient's current ones, quantity and cost
      the stored ones. */
  function Joined(l: LineRow, ing: Ingredients.Ingredient, selectId: bool): DetailLine {
    DetailLine(if selectId then Some(l.ingredientId) else None, ing.name, l.quantity, ing.unit, l.costContribution)
  }

  /** The joined line for `l`, or nothing when its ingredient is gone (an
      inner join drops it). */
  function JoinLine(l: LineRow, ings: Ingredients.Table, selectId: bool): seq<DetailLine> {
    match Ingredients.Lookup(ings, l.ingredientId)
    case None => []
    case Some(ing) => [Joined(l, ing, selectId)]
  }

  /** `d` is the join of one of the recipe's lines with its ingredient. */
  ghost predicate JoinedFromRecipe(d: DetailLine, ls: seq<LineRow>, id: int, ings: Ingredients.Table, selectId: bool) {
    exists l :: l in ls && l.recipeId == id && Ingredients.Lookup(ings, l.ingredientId).Some?
                && d == Joined(l, Ingredients.Lookup(ings, l.ingredientId).value, selectId)
  }

  /** The line query: lines of recipe `id` joined to their ingredients. */
  function JoinLines(ls: seq<LineRow>, id: int, ings: Ingredients.Table, selectId: bool): (r: seq<DetailLine>)
    ensures |r| <= |LinesOf(ls, id)|
    ensures forall d :: d in r ==> JoinedFromRecipe(d, ls, id, ings, selectId)
    ensures !selectId ==> forall d :: d in r ==> d.ingredientId.None?
    ensures selectId ==> forall d :: d in r ==>
              d.ingredientId.Some? && Ingredients.Lookup(ings, d.ingredientId.value).Some?
  {
    if |ls| == 0 then []
    else
      var head := if ls[0].recipeId == id then JoinLine(ls[0], ings, selectId) else [];
      var tail := JoinLines(ls[1..], id, ings, selectId);
      assert forall d :: d in tail ==> JoinedFromRecipe(d, ls, id, ings, selectId) by {
        forall d | d in tail ensures JoinedFromRecipe(d, ls, id, ings, selectId) {
          assert JoinedFromRecipe(d, ls[1..], id, ings, selectId);
          var l :| l in ls[1..] && l.recipeId == id && Ingredients.Lookup(ings, l.ingredientId).Some?
                   && d == Joined(l, Ingredients.Lookup(ings, l.ingredientId).value, selectId);
          assert l in ls;
        }
      }
      head + tail
  }

  /** Every line of the recipe still names an existing ingredient. */
  predicate IngredientsLive(ls: seq<LineRow>, id: int, ings: Ingredients.Table) {
    forall l :: l in LinesOf(ls, id) ==> Ingredients.Lookup(ings, l.ingredientId).Some?
  }

  /** The reply lines are the recipe's lines, one for one and in order, each
      joined to its ingredient. */
  ghost predicate JoinedOneForOne(r: seq<DetailLine>, own: seq<LineRow>, ings: Ingredients.Table, selectId: bool) {
    && |r| == |own|
    && forall k :: 0 <= k < |own| ==>
         Ingredients.Lookup(ings, own[k].ingredientId).Some?
         && r[k] == Joined(own[k], Ingredients.Lookup(ings, own[k].ingredientId).value, selectId)
  }

  /** When no ingredient of the recipe has been deleted, the join keeps
      every line of the recipe, in order, with its stored quantity and cost
      and its ingredient's name and unit. */
  lemma {:induction false} JoinLinesOfLiveLines(ls: seq<LineRow>, id: int, ings: Ingredients.Table, selectId: bool)
    requires IngredientsLive(ls, id, ings)
    ensures JoinedOneForOne(JoinLines(ls, id, ings, selectId), LinesOf(ls, id), ings, selectId)
  {
    if |ls| > 0 {
      var l, rest := ls[0], ls[1..];
      assert IngredientsLive(rest, id, ings) by {
        forall m | m in LinesOf(rest, id) ensures m in LinesOf(ls, id) {
          assert m in rest;
        }
      }
      JoinLinesOfLiveLines(rest, id, ings, selectId);
      if l.recipeId == id {
        assert l in LinesOf(ls, id);
        JoinedOneForOneCons(l, JoinLines(rest, id, ings, selectId), LinesOf(rest, id), ings, selectId);
      }
    }
  }

  /** Joining one more live line in front keeps the one-for-one match. */
  lemma JoinedOneForOneCons(l: LineRow, tail: seq<DetailLine>, own: seq<LineRow>, ings: Ingredients.Table, selectId: bool)
    requires Ingredients.Lookup(ings, l.ingredientId).Some?
    requires JoinedOneForOne(tail, own, ings, selectId)
    ensures JoinedOneForOne(JoinLine(l, ings, selectId) + tail, [l] + own, ings, selectId)
  {
    var r := JoinLine(l, ings, selectId) + tail;
    var o := [l] + own;
    forall k | 0 <= k < |o|
      ensures Ingredients.Lookup(ings, o[k].ingredientId).Some?
      ensures r[k] == Joined(o[k], Ingredients.Lookup(ings, o[k].ingredientId).value, selectId)
    {
      if k > 0 {
        assert o[k] == own[k - 1];
        assert r[k] == tail[k - 1];
      }
    }
  }

  function Fetch(db: Db, id: int, selectId: bool): Option<Detail> {
    match FindRecipe(db.recipes, id)
    case None => None
    case Some(row) => Some(Detail(row, JoinLines(db.lines, id, db.ingredients, selectId)))
  }

  /** getRecipeById as written: 404 (None) for a missing key, otherwise
      the row and its joined lines, none of which carries an ingredient key. */
  function GetRecipeById(db: Db, id: int): (r: Option<Detail>)
    ensures r.None? <==> !HasRecipe(db.recipes, id)
    ensures r.Some? ==> r.value.recipe in db.recipes && r.value.recipe.id == id
    ensures r.Some? ==> |r.value.lines| <= |LinesOf(db.lines, id)|
    ensures r.Some? ==> forall d :: d in r.value.lines ==> JoinedFromRecipe(d, db.lines, id, db.ingredients, false)
    ensures r.Some? && IngredientsLive(db.lines, id, db.ingredients) ==>
              JoinedOneForOne(r.value.lines, LinesOf(db.lines, id), db.ingredients, false)
    ensures r.Some? ==> forall d :: d in r.value.lines ==> d.ingredientId.None?
  {
    if IngredientsLive(db.lines, id, db.ingredients) then
      JoinLinesOfLiveLines(db.lines, id, db.ingredients, false);
      Fetch(db, id, false)
    else Fetch(db, id, false)
  }

  /** getRecipeById with `ri.ingredient_id` added to the selected columns. */
  function GetRecipeByIdWithIngredient(db: Db, id: int): (r: Option<Detail>)
    ensures r.None? <==> !HasRecipe(db.recipes, id)
    ensures r.Some? ==> r.value.recipe in db.recipes && r.value.recipe.id == id
    ensures r.Some? ==> forall d :: d in r.value.lines ==> JoinedFromRecipe(d, db.lines, id, db.ingredients, true)
    ensures r.Some? && IngredientsLive(db.lines, id, db.ingredients) ==>
              JoinedOneForOne(r.value.lines, LinesOf(db.lines, id), db.ingredients, true)
    ensures r.Some? ==> forall d :: d in r.value.lines ==>
              d.ingredientId.Some? && Ingredients.Lookup(db.ingredients, d.ingredientId.value).Some?
  {
    if IngredientsLive(db.lines, id, db.ingredients) then
      JoinLinesOfLiveLines(db.lines, id, db.ingredients, true);
      Fetch(db, id, true)
    else Fetch(db, id, true)
  }

  /** fetchAndSetEdit: each joined line becomes a form line whose
      `ingredient_id` is whatever the reply carried. */
  function EditForm(ds: seq<DetailLine>): (r: seq<RecipeForm.FormLine>)
    ensures |r| == |ds|
    ensures forall k :: 0 <= k < |ds| ==> r[k].ingredientId == ds[k].ingredientId
    ensures forall k :: 0 <= k < |ds| ==> r[k].quantity == Finite(ds[k].quantity)
    ensures forall k :: 0 <= k < |ds| ==>
              r[k].name == ds[k].name && r[k].cost == Finite(ds[k].costContribution) && r[k].unit == ds[k].unit
  {
    seq(|ds|, k requires 0 <= k < |ds| =>
      RecipeForm.FormLine(ds[k].ingredientId, Finite(ds[k].quantity), ds[k].name, Finite(ds[k].costContribution), ds[k].unit))
  }

  /** The items the server reads from the submitted form lines: a line
      without an ingredient key arrives without one. */
  function Submitted(ls: seq<RecipeForm.FormLine>): (r: seq<LineRequest>)
    requires forall k :: 0 <= k < |ls| ==> ls[k].quantity.Finite?
    ensures |r| == |ls|
    ensures forall k :: 0 <= k < |ls| ==> r[k] == LineRequest(ls[k].ingredientId, ls[k].quantity.v)
  {
    seq(|ls|, k requires 0 <= k < |ls| => LineRequest(ls[k].ingredientId, ls[k].quantity.v))
  }

  /** The items sent when a loaded recipe is saved without changes. */
  function Resubmitted(ds: seq<DetailLine>): (r: seq<LineRequest>)
    ensures |r| == |ds|
    ensures forall k :: 0 <= k < |ds| ==> r[k] == LineRequest(ds[k].ingredientId, ds[k].quantity)
  {
    Submitted(EditForm(ds))
  }

  lemma {:induction false} KeylessItemsInsertNothing(id: int, reqs: seq<LineRequest>, ings: Ingredients.Table)
    requires forall q :: q in reqs ==> q.ingredientId.None?
    ensures CostLines(id, reqs, ings) == []
  {
    if |reqs| > 0 {
      KeylessItemsInsertNothing(id, reqs[1..], ings);
    }
  }

  /** As written: loading a recipe into the edit form and saving it back
      unchanged deletes all of its lines and sets its cost to 0. */
  lemma ResaveAfterEditDropsLines(db: Db, id: int)
    requires HasRecipe(db.recipes, id)
    ensures var d := GetRecipeById(db, id).value;
            var r := UpdateRecipe(db, id, d.recipe.header, Resubmitted(d.lines), NoFault);
            && r.1.Updated?
            && LinesOf(r.0.lines, id) == []
            && r.1.totalCost == 0.0
  {
    var d := GetRecipeById(db, id).value;
    var reqs := Resubmitted(d.lines);
    assert forall q :: q in reqs ==> q.ingredientId.None? by {
      forall q | q in reqs ensures q.ingredientId.None? {
        var k :| 0 <= k < |reqs| && reqs[k] == q;
        assert d.lines[k] in d.lines;
      }
    }
    KeylessItemsInsertNothing(id, reqs, db.ingredients);
    RecipeProofs.UpdateReplacesLineSet(db, id, d.recipe.header, reqs);
  }

  /** A recipe with a line whose ingredient still exists loses it. */
  lemma EditDropsAnExistingLine()
    ensures var flour := Ingredients.Ingredient(1, "flour", "g", 0.002, None);
            var row := RecipeRow(1, None, Header("bread", "", 30, 5.0), 1.0, 80.0);
            var db := Db(Ingredients.Table([flour], 2), [row], [LineRow(1, 1, 500.0, 1.0)], 2);
            && |GetRecipeById(db, 1).value.lines| == 1
            && UpdateRecipe(db, 1, row.header, Resubmitted(GetRecipeById(db, 1).value.lines), NoFault).1
               == Updated(1, 0.0, 100.0)
  {
    var flour := Ingredients.Ingredient(1, "flour", "g", 0.002, None);
    var row := RecipeRow(1, None, Header("bread", "", 30, 5.0), 1.0, 80.0);
    var db := Db(Ingredients.Table([flour], 2), [row], [LineRow(1, 1, 500.0, 1.0)], 2);
    assert Ingredients.Lookup(db.ingredients, 1) == Some(flour);
    assert HasRecipe(db.recipes, 1) by { assert db.recipes[0].id == 1; }
    ResaveAfterEditDropsLines(db, 1);
    assert ProfitMargin(5.0, 0.0) == 100.0 by {
      assert ProfitMargin(5.0, 0.0) * 5.0 == 5.0 * 100.0;
    }
  }

  /** The recipe's lines whose ingredient still exists, priced at the
      ingredient's current cost: what a save of the joined lines inserts. */
  function Repriced(ls: seq<LineRow>, id: int, ings: Ingredients.Table): seq<LineRow> {
    if |ls| == 0 then []
    else
      var head := if ls[0].recipeId == id then ItemLine(id, LineRequest(Some(ls[0].ingredientId), ls[0].quantity), ings) else [];
      head + Repriced(ls[1..], id, ings)
  }

  lemma {:induction false} CostLinesAppend(id: int, a: seq<LineRequest>, b: seq<LineRequest>, ings: Ingredients.Table)
    ensures CostLines(id, a + b, ings) == CostLines(id, a, ings) + CostLines(id, b, ings)
  {
    if |a| == 0 {
      assert a + b == b;
    } else {
      assert (a + b)[0] == a[0];
      assert (a + b)[1..] == a[1..] + b;
      CostLinesAppend(id, a[1..], b, ings);
    }
  }

  /** Saving the joined lines with their ingredient keys re-inserts every
      line whose ingredient exists, with its quantity, at the current price. */
  lemma {:induction false} ResubmitJoinedLines(ls: seq<LineRow>, id: int, ings: Ingredients.Table)
    ensures CostLines(id, Resubmitted(JoinLines(ls, id, ings, true)), ings) == Repriced(ls, id, ings)
  {
    if |ls| > 0 {
      ResubmitJoinedLines(ls[1..], id, ings);
      var head := if ls[0].recipeId == id then JoinLine(ls[0], ings, true) else [];
      var tail := JoinLines(ls[1..], id, ings, true);
      assert JoinLines(ls, id, ings, true) == head + tail;
      ResubmittedAppend(head, tail);
      CostLinesAppend(id, Resubmitted(head), Resubmitted(tail), ings);
      if |head| == 1 {
        assert Resubmitted(head) == [LineRequest(Some(ls[0].ingredientId), ls[0].quantity)];
        assert [LineRequest(Some(ls[0].ingredientId), ls[0].quantity)][1..] == [];
      }
    }
  }

  lemma ResubmittedAppend(a: seq<DetailLine>, b: seq<DetailLine>)
    ensures Resubmitted(a + b) == Resubmitted(a) + Resubmitted(b)
  {
  }

  /** Every line of the recipe still names an existing ingredient and was
      priced at that ingredient's current cost. */
  ghost predicate PricesCurrent(db: Db, id: int) {
    LinesPriced(db.lines, id, db.ingredients)
  }

  ghost predicate LinesPriced(ls: seq<LineRow>, id: int, ings: Ingredients.Table) {
    forall l :: l in LinesOf(ls, id) ==>
      Ingredients.Lookup(ings, l.ingredientId).Some?
      && l.costContribution == Ingredients.Lookup(ings, l.ingredientId).value.costPerUnit * l.quantity
  }

  lemma {:induction false} RepricedIsLinesOf(ls: seq<LineRow>, id: int, ings: Ingredients.Table)
    requires LinesPriced(ls, id, ings)
    ensures Repriced(ls, id, ings) == LinesOf(ls, id)
  {
    if |ls| > 0 {
      var l, rest := ls[0], ls[1..];
      assert LinesPriced(rest, id, ings) by {
        forall m | m in LinesOf(rest, id) ensures m in LinesOf(ls, id) {
          assert m in rest;
        }
      }
      RepricedIsLinesOf(rest, id, ings);
      if l.recipeId == id {
        assert l in LinesOf(ls, id);
        RepricedLine(l, id, ings);
      }
    }
  }

  /** A line of the recipe priced at its ingredient's current cost is
      re-inserted as itself. */
  lemma RepricedLine(l: LineRow, id: int, ings: Ingredients.Table)
    requires l.recipeId == id
    requires Ingredients.Lookup(ings, l.ingredientId).Some?
    requires l.costContribution == Ingredients.Lookup(ings, l.ingredientId).value.costPerUnit * l.quantity
    ensures ItemLine(id, LineRequest(Some(l.ingredientId), l.quantity), ings) == [l]
  {
    var ing := Ingredients.Lookup(ings, l.ingredientId).value;
    assert l == LineRow(id, l.ingredientId, l.quantity, ing.costPerUnit * l.quantity);
    var it := ItemLine(id, LineRequest(Some(l.ingredientId), l.quantity), ings);
    assert |it| == 1 && it[0] == l;
    assert it == [l];
  }

  /** Corrected: with the ingredient key selected, saving a loaded recipe
      unchanged re-inserts each line whose ingredient still exists, with
      its quantity, priced at the current cost. */
  lemma ResaveAfterFixedEditKeepsLines(db: Db, id: int)
    requires HasRecipe(db.recipes, id)
    ensures var d := GetRecipeByIdWithIngredient(db, id).value;
            var r := UpdateRecipe(db, id, d.recipe.header, Resubmitted(d.lines), NoFault);
            && r.1.Updated?
            && LinesOf(r.0.lines, id) == Repriced(db.lines, id, db.ingredients)
            && r.1.totalCost == TotalCost(Repriced(db.lines, id, db.ingredients))
  {
    var d := GetRecipeByIdWithIngredient(db, id).value;
    assert d.lines == JoinLines(db.lines, id, db.ingredients, true);
    ResubmitJoinedLines(db.lines, id, db.ingredients);
    RecipeProofs.UpdateReplacesLineSet(db, id, d.recipe.header, Resubmitted(d.lines));
  }

  /** Corrected, with nothing deleted or repriced since the last save: the
      lines and the totals come back exactly as they were. */
  lemma ResaveAfterFixedEditIsNoOp(db: Db, id: int)
    requires RecipeProofs.Consistent(db)
    requires HasRecipe(db.recipes, id)
    requires PricesCurrent(db, id)
    ensures var d := GetRecipeByIdWithIngredient(db, id).value;
            var r := UpdateRecipe(db, id, d.recipe.header, Resubmitted(d.lines), NoFault);
            && LinesOf(r.0.lines, id) == LinesOf(db.lines, id)
            && r.1 == Updated(id, d.recipe.totalCost, d.recipe.profitMargin)
  {
    var d := GetRecipeByIdWithIngredient(db, id).value;
    FixedEditRebuildsLines(db, id);
    ResaveSameLinesIsNoOp(db, id, d.recipe, Resubmitted(d.lines));
  }

  /** With prices current, the items of the loaded form rebuild exactly the
      recipe's stored lines. */
  lemma FixedEditRebuildsLines(db: Db, id: int)
    requires HasRecipe(db.recipes, id)
    requires PricesCurrent(db, id)
    ensures CostLines(id, Resubmitted(GetRecipeByIdWithIngredient(db, id).value.lines), db.ingredients)
            == LinesOf(db.lines, id)
  {
    var d := GetRecipeByIdWithIngredient(db, id).value;
    assert d.lines == JoinLines(db.lines, id, db.ingredients, true);
    ResubmitJoinedLines(db.lines, id, db.ingredients);
    RepricedIsLinesOf(db.lines, id, db.ingredients);
  }

  /** Saving a recipe's own header with items that rebuild exactly its
      current line set leaves that line set and its totals as they were. */
  lemma ResaveSameLinesIsNoOp(db: Db, id: int, row: RecipeRow, reqs: seq<LineRequest>)
    requires RecipeProofs.Consistent(db)
    requires row in db.recipes && row.id == id
    requires CostLines(id, reqs, db.ingredients) == LinesOf(db.lines, id)
    ensures var r := UpdateRecipe(db, id, row.header, reqs, NoFault);
            && LinesOf(r.0.lines, id) == LinesOf(db.lines, id)
            && r.1 == Updated(id, row.totalCost, row.profitMargin)
  {
    RowIsConsistent(db, row);
    RecipeProofs.UpdateReplacesLineSet(db, id, row.header, reqs);
    SameTotalsSameReply(db, id, row.header, reqs, row.totalCost, row.profitMargin);
  }

  lemma RowIsConsistent(db: Db, row: RecipeRow)
    requires RecipeProofs.Consistent(db)
    requires row in db.recipes
    ensures RecipeProofs.RowConsistent(row, db.lines)
  {
    var k :| 0 <= k < |db.recipes| && db.recipes[k] == row;
  }

  /** An update whose rebuilt total equals the stored one replies with the
      stored totals. */
  lemma SameTotalsSameReply(db: Db, id: int, h: Header, reqs: seq<LineRequest>, total: real, margin: real)
    requires HasRecipe(db.recipes, id)
    requires TotalCost(CostLines(id, reqs, db.ingredients)) == total
    requires margin == ProfitMargin(h.salePrice, total)
    ensures UpdateRecipe(db, id, h, reqs, NoFault).1 == Updated(id, total, margin)
  {
  }
}

=== FILE: recipe_form.dfy ===
/** The recipe form of the client: adding an ingredient line (with unit
    conversion into the ingredient's own unit), removing a line, the running
    cost estimate and the estimated-margin badge. The unit check and the
    positive-quantity check exist only here; the server repeats neither. */
module RecipeForm {
  import opened Wrappers
  import opened Numbers
  import opened Units

  /** An ingredient as the client holds it after loading the list. */
  datatype ClientIngredient = ClientIngredient(id: int, name: string, costPerUnit: real, unit: string)

  /** One line of the form. `quantity` is in the ingredient's own unit;
      both numbers are NaN when that unit is outside the catalog. */
  datatype FormLine = FormLine(ingredientId: Option<int>, quantity: JsNum, name: string, cost: JsNum, unit: string)

  /** What pressing "add" does: append a line, do nothing (no ingredient
      chosen, or no positive quantity), or alert that the units differ. */
  datatype AddOutcome = Appended(lines: seq<FormLine>) | Ignored | Incompatible(from: string, to: string)

  /** `Array.find`: the first ingredient with key `id`. */
  function FindIngredient(ings: seq<ClientIngredient>, id: int): (r: Option<ClientIngredient>)
    ensures r.None? <==> forall k :: 0 <= k < |ings| ==> ings[k].id != id
    ensures r.Some? ==> exists k :: 0 <= k < |ings| && ings[k] == r.value && r.value.id == id
                                      && forall j :: 0 <= j < k ==> ings[j].id != id
  {
    if |ings| == 0 then None
    else if ings[0].id == id then Some(ings[0])
    else
      var r := FindIngredient(ings[1..], id);
      if r.Some? then
        var k :| 0 <= k < |ings[1..]| && ings[1..][k] == r.value && r.value.id == id
                 && forall j :: 0 <= j < k ==> ings[1..][j].id != id;
        assert ings[k + 1] == r.value;
        r
      else r
  }

  /** The unit the entered quantity is read in: the chosen one, or the
      ingredient's own unit when none is chosen. */
  function TargetUnit(selectedUnit: string, baseUnit: string): (r: string)
    ensures selectedUnit != "" ==> r == selectedUnit
    ensures selectedUnit == "" ==> r == baseUnit
  {
    if selectedUnit == "" then baseUnit else selectedUnit
  }

  /** The line for `qty` units of `target` of `ing`, re-expressed in the
      ingredient's own unit and priced at its cost per unit. */
  function PricedLine(ing: ClientIngredient, qty: real, target: string): (l: FormLine)
    requires DimensionOf(target) == DimensionOf(ing.unit)
    ensures l.ingredientId == Some(ing.id) && l.name == ing.name && l.unit == ing.unit
    ensures l.quantity.NaN? <==> ing.unit !in Tags
    ensures l.quantity.Finite? ==> Convert(qty, target, ing.unit) == Some(l.quantity.v)
    ensures l.cost.NaN? <==> l.quantity.NaN?
    ensures l.cost.Finite? ==> l.cost.v == ing.costPerUnit * l.quantity.v
  {
    var converted := Convert(qty, target, ing.unit);
    assert converted.Some? <==> ing.unit in Tags;
    LineOf(ing, converted)
  }

  /** The line holding `converted` units of `ing` (NaN when the conversion
      failed), priced at its cost per unit. */
  function LineOf(ing: ClientIngredient, converted: Option<real>): (l: FormLine)
    ensures l.ingredientId == Some(ing.id) && l.name == ing.name && l.unit == ing.unit
    ensures l.quantity.NaN? <==> converted.None?
    ensures converted.Some? ==> l.quantity.v == converted.value
    ensures l.cost.NaN? <==> converted.None?
    ensures converted.Some? ==> l.cost.v == ing.costPerUnit * converted.value
  {
    match converted
    case Some(q) => FormLine(Some(ing.id), Finite(q), ing.name, Finite(ing.costPerUnit * q), ing.unit)
    case None => FormLine(Some(ing.id), NaN, ing.name, NaN, ing.unit)
  }

  /** The stored quantity holds as many base units as the entered one. */
  lemma PricedLineKeepsAmount(ing: ClientIngredient, qty: real, target: string)
    requires DimensionOf(target) == DimensionOf(ing.unit)
    ensures var l := PricedLine(ing, qty, target);
            l.quantity.Finite? ==> l.quantity.v * FactorOf(ing.unit).value == qty * FactorOf(target).value
  {
  }

  /** addIngredientToRecipe. */
  function AddIngredient(lines: seq<FormLine>, ings: seq<ClientIngredient>, selectedId: Option<int>,
                         qty: JsNum, selectedUnit: string): (r: AddOutcome)
    ensures r.Ignored? <==> selectedId.None? || FindIngredient(ings, selectedId.value).None?
                            || !(qty.Finite? && qty.v > 0.0)
    ensures r.Incompatible? ==>
      var ing := FindIngredient(ings, selectedId.value).value;
      && r.from == ing.unit && r.to == TargetUnit(selectedUnit, ing.unit)
      && DimensionOf(r.from) != DimensionOf(r.to)
    ensures r.Appended? ==>
      var ing := FindIngredient(ings, selectedId.value).value;
      && |r.lines| == |lines| + 1
      && r.lines[..|lines|] == lines
      && DimensionOf(TargetUnit(selectedUnit, ing.unit)) == DimensionOf(ing.unit)
      && r.lines[|lines|] == PricedLine(ing, qty.v, TargetUnit(selectedUnit, ing.unit))
  {
    if selectedId.None? || !(qty.Finite? && qty.v > 0.0) then Ignored
    else match FindIngredient(ings, selectedId.value)
      case None => Ignored
      case Some(ing) =>
        var target := TargetUnit(selectedUnit, ing.unit);
        if DimensionOf(ing.unit) != DimensionOf(target) then Incompatible(ing.unit, target)
        else
          var lines' := lines + [PricedLine(ing, qty.v, target)];
          assert lines'[..|lines|] == lines;
          Appended(lines')
  }

  /** The index `Array.splice(index, 1)` removes at, for a list of `len`
      elements: negative indices count from the end. Equal to `len` when
      nothing is removed. */
  function SpliceStart(index: int, len: nat): (p: nat)
    ensures p <= len
  {
    if index < 0 then (if len + index < 0 then 0 else len + index)
    else if index > len then len
    else index
  }

  /** removeIngredientFromRecipe. */
  function RemoveLine(lines: seq<FormLine>, index: int): (r: seq<FormLine>)
    ensures 0 <= index < |lines| ==> |r| == |lines| - 1
    ensures 0 <= index < |lines| ==> forall k :: 0 <= k < index ==> r[k] == lines[k]
    ensures 0 <= index < |lines| ==> forall k :: index <= k < |r| ==> r[k] == lines[k + 1]
    ensures index >= |lines| ==> r == lines
    ensures -|lines| <= index < 0 ==> r == lines[..|lines| + index] + lines[|lines| + index + 1..]
    ensures index < -|lines| && |lines| > 0 ==> r == lines[1..]
    ensures |lines| == 0 ==> r == []
  {
    var p := SpliceStart(index, |lines|);
    if p < |lines| then lines[..p] + lines[p + 1..] else lines
  }

  /** `estimatedCost`: the left-to-right sum of the line costs from 0. */
  function EstimatedCost(lines: seq<FormLine>): (r: JsNum)
    ensures r.NaN? <==> exists k :: 0 <= k < |lines| && lines[k].cost.NaN?
  {
    if |lines| == 0 then Finite(0.0)
    else Add(EstimatedCost(lines[..|lines| - 1]), lines[|lines| - 1].cost)
  }

  /** Cost of a line whose cost is a number. */
  function LineCost(l: FormLine): real {
    if l.cost.Finite? then l.cost.v else 0.0
  }

  lemma {:induction false} EstimatedCostIsSum(lines: seq<FormLine>)
    requires forall k :: 0 <= k < |lines| ==> lines[k].cost.Finite?
    ensures EstimatedCost(lines) == Finite(SumOf(lines, LineCost))
  {
    if |lines| > 0 {
      EstimatedCostIsSum(lines[..|lines| - 1]);
    }
  }

  /** Removing line `i` lowers the estimate by exactly that line's cost. */
  lemma EstimateAfterRemove(lines: seq<FormLine>, i: int)
    requires forall k :: 0 <= k < |lines| ==> lines[k].cost.Finite?
    requires 0 <= i < |lines|
    ensures EstimatedCost(RemoveLine(lines, i)).Finite?
    ensures EstimatedCost(RemoveLine(lines, i)).v == EstimatedCost(lines).v - lines[i].cost.v
  {
    var r := RemoveLine(lines, i);
    assert r == lines[..i] + lines[i + 1..];
    EstimatedCostIsSum(lines);
    EstimatedCostIsSum(r);
    SumOfRemoveAt(lines, i, LineCost);
  }

  /** Adding a line raises the estimate by exactly the new line's cost. */
  lemma EstimateAfterAdd(lines: seq<FormLine>, ings: seq<ClientIngredient>, selectedId: Option<int>,
                         qty: JsNum, selectedUnit: string)
    requires AddIngredient(lines, ings, selectedId, qty, selectedUnit).Appended?
    ensures var r := AddIngredient(lines, ings, selectedId, qty, selectedUnit).lines;
            EstimatedCost(r) == Add(EstimatedCost(lines), r[|lines|].cost)
  {
    var r := AddIngredient(lines, ings, selectedId, qty, selectedUnit).lines;
    assert r[..|r| - 1] == lines;
  }

  /** The margin badge: the percentage shown (None when it is not a finite
      number) and whether it is shown green. */
  datatype Badge = Badge(percent: Option<real>, green: bool)

  /** The estimated margin `(sale - cost) / sale * 100`, shown only when a
      sale price has been typed, green when at least 30. Division by a zero
      price gives an infinity (green only if the cost is negative) or NaN. */
  function MarginBadge(saleEntered: bool, sale: JsNum, cost: JsNum): (r: Option<Badge>)
    ensures r.Some? <==> saleEntered
    ensures r.Some? ==> (r.value.percent.Some? <==> sale.Finite? && sale.v != 0.0 && cost.Finite?)
    ensures r.Some? && r.value.percent.Some? ==> r.value.percent.value * sale.v == (sale.v - cost.v) * 100.0
    ensures r.Some? && r.value.percent.Some? ==> (r.value.green <==> r.value.percent.value >= 30.0)
    ensures r.Some? && sale.Finite? && sale.v > 0.0 && cost.Finite? ==>
              (r.value.green <==> cost.v <= sale.v * 0.7)
    ensures r.Some? && sale.Finite? && sale.v == 0.0 && cost.Finite? ==>
              (r.value.green <==> cost.v < 0.0)
    ensures r.Some? && (sale.NaN? || cost.NaN?) ==> r.value == Badge(None, false)
  {
    if !saleEntered then None
    else if sale.NaN? || cost.NaN? then Some(Badge(None, false))
    else if sale.v == 0.0 then Some(Badge(None, sale.v - cost.v > 0.0))
    else
      var pct := (sale.v - cost.v) / sale.v * 100.0;
      Some(Badge(Some(pct), pct >= 30.0))
  }

  /** With no unit chosen the entered quantity is kept as is. */
  lemma DefaultUnitKeepsQuantity(ing: ClientIngredient, qty: real)
    requires ing.unit in Tags
    ensures PricedLine(ing, qty, TargetUnit("", ing.unit)).quantity == Finite(qty)
  {
  }

  /** $10 per kg, 500 g entered: the line holds 0.5 kg costing 5. */
  lemma WorkedExample()
    ensures var ing := ClientIngredient(1, "harina", 10.0, "kg");
            AddIngredient([], [ing], Some(1), Finite(500.0), "g")
              == Appended([FormLine(Some(1), Finite(0.5), "harina", Finite(5.0), "kg")])
  {
  }
}

=== FILE: recipe_proofs.dfy ===
/** Properties of the save protocol that relate several calls or the whole
    store: every recipe's totals match its line set after any save, an
    update repeated with the same input changes nothing, missing
    ingredients are skipped, and two worked scenarios. */
module RecipeProofs {
  import opened Wrappers
  import opened Numbers
  import Ingredients
  import opened Recipes

  /** A row's derived columns agree with its lines. */
  ghost predicate RowConsistent(row: RecipeRow, lines: seq<LineRow>) {
    && row.totalCost == TotalCost(LinesOf(lines, row.id))
    && row.profitMargin == ProfitMargin(row.header.salePrice, row.totalCost)
  }

  /** Every recipe's totals agree with its current line set. */
  ghost predicate Consistent(db: Db) {
    forall k :: 0 <= k < |db.recipes| ==> RowConsistent(db.recipes[k], db.lines)
  }

  lemma {:induction false} LinesOfAppend(a: seq<LineRow>, b: seq<LineRow>, id: int)
    ensures LinesOf(a + b, id) == LinesOf(a, id) + LinesOf(b, id)
  {
    if |a| == 0 {
      assert a + b == b;
    } else {
      assert (a + b)[0] == a[0];
      assert (a + b)[1..] == a[1..] + b;
      LinesOfAppend(a[1..], b, id);
    }
  }

  lemma {:induction false} LinesOfOwn(ls: seq<LineRow>, id: int)
    requires forall l :: l in ls ==> l.recipeId == id
    ensures LinesOf(ls, id) == ls
  {
    if |ls| > 0 {
      LinesOfOwn(ls[1..], id);
      assert ls == [ls[0]] + ls[1..];
    }
  }

  lemma {:induction false} LinesOfForeign(ls: seq<LineRow>, id: int)
    requires forall l :: l in ls ==> l.recipeId != id
    ensures LinesOf(ls, id) == []
  {
    if |ls| > 0 {
      LinesOfForeign(ls[1..], id);
    }
  }

  lemma {:induction false} LinesOfAfterDrop(ls: seq<LineRow>, id: int, other: int)
    ensures other != id ==> LinesOf(DropLinesOf(ls, id), other) == LinesOf(ls, other)
    ensures LinesOf(DropLinesOf(ls, id), id) == []
  {
    if |ls| > 0 {
      LinesOfAfterDrop(ls[1..], id, other);
      var head: seq<LineRow> := if ls[0].recipeId != id then [ls[0]] else [];
      assert DropLinesOf(ls, id) == head + DropLinesOf(ls[1..], id);
      LinesOfAppend(head, DropLinesOf(ls[1..], id), other);
      LinesOfAppend(head, DropLinesOf(ls[1..], id), id);
      if ls[0].recipeId != id {
        assert head[1..] == [];
      }
    }
  }

  lemma {:induction false} DropAppend(a: seq<LineRow>, b: seq<LineRow>, id: int)
    ensures DropLinesOf(a + b, id) == DropLinesOf(a, id) + DropLinesOf(b, id)
  {
    if |a| == 0 {
      assert a + b == b;
    } else {
      var t := a[1..];
      assert (a + b)[0] == a[0] && (a + b)[1..] == t + b;
      DropAppend(t, b, id);
      var head: seq<LineRow> := if a[0].recipeId != id then [a[0]] else [];
      assert head + (DropLinesOf(t, id) + DropLinesOf(b, id)) == (head + DropLinesOf(t, id)) + DropLinesOf(b, id);
    }
  }

  lemma {:induction false} DropOwn(ls: seq<LineRow>, id: int)
    requires forall l :: l in ls ==> l.recipeId == id
    ensures DropLinesOf(ls, id) == []
  {
    if |ls| > 0 {
      DropOwn(ls[1..], id);
    }
  }

  lemma {:induction false} DropForeign(ls: seq<LineRow>, id: int)
    requires forall l :: l in ls ==> l.recipeId != id
    ensures DropLinesOf(ls, id) == ls
  {
    if |ls| > 0 {
      DropForeign(ls[1..], id);
      assert ls == [ls[0]] + ls[1..];
    }
  }

  /** Lines added for another recipe leave a row's consistency alone. */
  lemma OtherLinesKeepRow(row: RecipeRow, lines: seq<LineRow>, added: seq<LineRow>)
    requires RowConsistent(row, lines)
    requires forall l :: l in added ==> l.recipeId != row.id
    ensures RowConsistent(row, lines + added)
  {
    LinesOfForeign(added, row.id);
    LinesOfAppend(lines, added, row.id);
    assert LinesOf(lines, row.id) + [] == LinesOf(lines, row.id);
  }

  /** A row whose lines are exactly `added`, with totals from them. */
  lemma OwnLinesMakeRow(row: RecipeRow, kept: seq<LineRow>, added: seq<LineRow>)
    requires LinesOf(kept, row.id) == []
    requires forall l :: l in added ==> l.recipeId == row.id
    requires row.totalCost == TotalCost(added)
    requires row.profitMargin == ProfitMargin(row.header.salePrice, row.totalCost)
    ensures RowConsistent(row, kept + added)
  {
    LinesOfOwn(added, row.id);
    LinesOfAppend(kept, added, row.id);
    assert [] + added == added;
  }

  /** Appending a new recipe row whose lines are `added` keeps the store
      valid. */
  lemma AppendRecipeKeepsValid(db: Db, db': Db, row: RecipeRow, added: seq<LineRow>)
    requires Valid(db)
    requires row.id == db.nextRecipeId && db'.nextRecipeId > row.id
    requires db'.recipes == db.recipes + [row] && db'.lines == db.lines + added
    requires forall l :: l in added ==> l.recipeId == row.id
    ensures Valid(db')
  {
    assert db'.recipes[|db.recipes|] == row;
    forall l | l in db'.lines ensures HasRecipe(db'.recipes, l.recipeId) {
      if l in db.lines {
        var k :| 0 <= k < |db.recipes| && db.recipes[k].id == l.recipeId;
        assert db'.recipes[k].id == l.recipeId;
      } else {
        assert db'.recipes[|db.recipes|].id == l.recipeId;
      }
    }
  }

  /** Appending a new recipe row whose lines are `added` keeps every
      recipe's totals equal to the sum of its lines. */
  lemma AppendRecipeKeepsConsistent(db: Db, db': Db, row: RecipeRow, added: seq<LineRow>)
    requires Valid(db) && Consistent(db)
    requires row.id == db.nextRecipeId
    requires db'.recipes == db.recipes + [row] && db'.lines == db.lines + added
    requires forall l :: l in added ==> l.recipeId == row.id
    requires row.totalCost == TotalCost(added)
    requires row.profitMargin == ProfitMargin(row.header.salePrice, row.totalCost)
    ensures Consistent(db')
  {
    var id := row.id;
    forall l | l in db.lines ensures l.recipeId != id {
      var k :| 0 <= k < |db.recipes| && db.recipes[k].id == l.recipeId;
    }
    LinesOfForeign(db.lines, id);
    OwnLinesMakeRow(row, db.lines, added);
    forall k | 0 <= k < |db'.recipes|
      ensures RowConsistent(db'.recipes[k], db'.lines)
    {
      if k < |db.recipes| {
        assert db'.recipes[k] == db.recipes[k];
        OtherLinesKeepRow(db.recipes[k], db.lines, added);
      } else {
        assert db'.recipes[k] == row;
      }
    }
  }

  /** Replacing the lines of existing recipe `id` by `added` keeps the
      store valid. */
  lemma RewriteRecipeKeepsValid(db: Db, db': Db, id: int, added: seq<LineRow>)
    requires Valid(db) && HasRecipe(db.recipes, id)
    requires db'.nextRecipeId == db.nextRecipeId
    requires db'.lines == DropLinesOf(db.lines, id) + added
    requires |db'.recipes| == |db.recipes|
    requires forall k :: 0 <= k < |db.recipes| ==> db'.recipes[k].id == db.recipes[k].id
    requires forall l :: l in added ==> l.recipeId == id
    ensures Valid(db')
  {
    var kept := DropLinesOf(db.lines, id);
    forall l | l in db'.lines ensures HasRecipe(db'.recipes, l.recipeId) {
      if l in kept {
        var k :| 0 <= k < |db.recipes| && db.recipes[k].id == l.recipeId;
        assert db'.recipes[k].id == l.recipeId;
      } else {
        var k :| 0 <= k < |db.recipes| && db.recipes[k].id == id;
        assert db'.recipes[k].id == l.recipeId;
      }
    }
  }

  /** Replacing the lines of existing recipe `id` by `added` and its totals
      by their sum keeps every recipe's totals equal to the sum of its
      lines. */
  lemma RewriteRecipeKeepsConsistent(db: Db, db': Db, id: int, h: Header, added: seq<LineRow>, total: real, margin: real)
    requires Consistent(db)
    requires db'.lines == DropLinesOf(db.lines, id) + added
    requires |db'.recipes| == |db.recipes|
    requires forall k :: 0 <= k < |db.recipes| ==>
               db'.recipes[k] == if db.recipes[k].id == id
                                 then db.recipes[k].(header := h, totalCost := total, profitMargin := margin)
                                 else db.recipes[k]
    requires forall l :: l in added ==> l.recipeId == id
    requires total == TotalCost(added) && margin == ProfitMargin(h.salePrice, total)
    ensures Consistent(db')
  {
    var kept := DropLinesOf(db.lines, id);
    forall k | 0 <= k < |db'.recipes|
      ensures RowConsistent(db'.recipes[k], db'.lines)
    {
      var rid := db.recipes[k].id;
      LinesOfAfterDrop(db.lines, id, rid);
      if rid != id {
        assert RowConsistent(db.recipes[k], db.lines);
        assert RowConsistent(db.recipes[k], kept);
        OtherLinesKeepRow(db.recipes[k], kept, added);
      } else {
        OwnLinesMakeRow(db'.recipes[k], kept, added);
      }
    }
  }

  /** Any create, successful or rolled back, keeps the store valid and
      every recipe's totals equal to the sum of its lines, the new recipe
      included. */
  lemma CreateKeepsTotalsConsistent(db: Db, h: Header, reqs: seq<LineRequest>, owner: Option<int>, fault: Fault)
    requires Valid(db) && Consistent(db)
    ensures var r := CreateRecipe(db, h, reqs, owner, fault);
            Valid(r.0) && Consistent(r.0)
  {
    var r := CreateRecipe(db, h, reqs, owner, fault);
    if r.1.Created? {
      var row := RecipeRow(r.1.id, owner, h, r.1.totalCost, r.1.profitMargin);
      AppendRecipeKeepsValid(db, r.0, row, CostLines(r.1.id, reqs, db.ingredients));
      AppendRecipeKeepsConsistent(db, r.0, row, CostLines(r.1.id, reqs, db.ingredients));
    }
  }

  /** Any update, successful, missing or rolled back, keeps the store valid
      and every recipe's totals equal to the sum of its lines: the updated
      recipe's lines are exactly the rebuilt ones, every other recipe's
      lines are untouched. */
  lemma UpdateKeepsTotalsConsistent(db: Db, id: int, h: Header, reqs: seq<LineRequest>, fault: Fault)
    requires Valid(db) && Consistent(db)
    ensures var r := UpdateRecipe(db, id, h, reqs, fault);
            Valid(r.0) && Consistent(r.0)
  {
    var r := UpdateRecipe(db, id, h, reqs, fault);
    if r.1.Updated? {
      var added := CostLines(id, reqs, db.ingredients);
      RewriteRecipeKeepsValid(db, r.0, id, added);
      RewriteRecipeKeepsConsistent(db, r.0, id, h, added, r.1.totalCost, r.1.profitMargin);
    }
  }

  /** Two identical updates leave the store exactly as one does: the old
      lines are deleted first, so nothing is duplicated. */
  lemma UpdateIsIdempotent(db: Db, id: int, h: Header, reqs: seq<LineRequest>)
    ensures var once := UpdateRecipe(db, id, h, reqs, NoFault);
            var twice := UpdateRecipe(once.0, id, h, reqs, NoFault);
            twice.0 == once.0 && twice.1 == once.1
  {
    var once := UpdateRecipe(db, id, h, reqs, NoFault);
    if once.1.Updated? {
      var k :| 0 <= k < |db.recipes| && db.recipes[k].id == id;
      assert once.0.recipes[k].id == id;
      var twice := UpdateRecipe(once.0, id, h, reqs, NoFault);
      assert twice.1.Updated?;
      var added := CostLines(id, reqs, db.ingredients);
      DropAppend(DropLinesOf(db.lines, id), added, id);
      DropOwn(added, id);
      DropForeign(DropLinesOf(db.lines, id), id);
      assert DropLinesOf(once.0.lines, id) == DropLinesOf(db.lines, id);
      assert twice.0.lines == once.0.lines;
      assert twice.0.recipes == once.0.recipes;
    }
  }

  /** After a successful update the recipe's lines are exactly the ones
      built from the request, whatever lines it had before. */
  lemma UpdateReplacesLineSet(db: Db, id: int, h: Header, reqs: seq<LineRequest>)
    requires HasRecipe(db.recipes, id)
    ensures var r := UpdateRecipe(db, id, h, reqs, NoFault);
            && r.1.Updated?
            && LinesOf(r.0.lines, id) == CostLines(id, reqs, db.ingredients)
            && r.1.totalCost == TotalCost(LinesOf(r.0.lines, id))
  {
    var r := UpdateRecipe(db, id, h, reqs, NoFault);
    assert r.1.Updated?;
    RebuiltLinesOf(db.lines, id, CostLines(id, reqs, db.ingredients));
  }

  /** Deleting a recipe's lines and appending lines of that recipe leaves
      exactly the appended ones under its key. */
  lemma RebuiltLinesOf(ls: seq<LineRow>, id: int, added: seq<LineRow>)
    requires forall l :: l in added ==> l.recipeId == id
    ensures LinesOf(DropLinesOf(ls, id) + added, id) == added
  {
    LinesOfAfterDrop(ls, id, id);
    LinesOfAppend(DropLinesOf(ls, id), added, id);
    LinesOfOwn(added, id);
    assert [] + added == added;
  }

  /** Request items whose ingredient is not in the table, by id. */
  predicate Known(req: LineRequest, ings: Ingredients.Table) {
    req.ingredientId.Some? && Ingredients.Lookup(ings, req.ingredientId.value).Some?
  }

  function KnownItems(reqs: seq<LineRequest>, ings: Ingredients.Table): (r: seq<LineRequest>)
    ensures forall q :: q in r <==> q in reqs && Known(q, ings)
  {
    if |reqs| == 0 then []
    else
      assert forall q :: q in reqs <==> q == reqs[0] || q in reqs[1..];
      (if Known(reqs[0], ings) then [reqs[0]] else []) + KnownItems(reqs[1..], ings)
  }

  /** Each known item is kept as often as it is sent. */
  lemma {:induction false} KnownItemsCounts(reqs: seq<LineRequest>, ings: Ingredients.Table)
    ensures forall q :: multiset(KnownItems(reqs, ings))[q] == if Known(q, ings) then multiset(reqs)[q] else 0
  {
    if |reqs| > 0 {
      KnownItemsCounts(reqs[1..], ings);
      assert reqs == [reqs[0]] + reqs[1..];
    }
  }

  /** The kept items stay in the order they were sent: filtering a
      concatenation filters each part. */
  lemma {:induction false} KnownItemsAppend(a: seq<LineRequest>, b: seq<LineRequest>, ings: Ingredients.Table)
    ensures KnownItems(a + b, ings) == KnownItems(a, ings) + KnownItems(b, ings)
  {
    if |a| == 0 {
      assert a + b == b;
    } else {
      assert (a + b)[0] == a[0];
      assert (a + b)[1..] == a[1..] + b;
      KnownItemsAppend(a[1..], b, ings);
    }
  }

  /** Items with a missing ingredient are skipped: they insert no line and
      add nothing to the total, and every other item inserts exactly one. */
  lemma {:induction false} MissingIngredientsAreSkipped(id: int, reqs: seq<LineRequest>, ings: Ingredients.Table)
    ensures CostLines(id, reqs, ings) == CostLines(id, KnownItems(reqs, ings), ings)
    ensures |CostLines(id, reqs, ings)| == |KnownItems(reqs, ings)|
  {
    if |reqs| > 0 {
      MissingIngredientsAreSkipped(id, reqs[1..], ings);
      var known := KnownItems(reqs, ings);
      if Known(reqs[0], ings) {
        assert known[0] == reqs[0] && known[1..] == KnownItems(reqs[1..], ings);
      } else {
        assert known == KnownItems(reqs[1..], ings);
      }
    }
  }

  lemma {:induction false} NoKnownItems(reqs: seq<LineRequest>, ings: Ingredients.Table)
    requires forall q :: q in reqs ==> !Known(q, ings)
    ensures KnownItems(reqs, ings) == []
  {
    if |reqs| > 0 {
      NoKnownItems(reqs[1..], ings);
    }
  }

  /** A save whose items all name missing ingredients writes no line, a
      total of 0 and, for a positive price, a margin of 100. */
  lemma NoKnownItemsFullMargin(db: Db, h: Header, reqs: seq<LineRequest>, owner: Option<int>)
    requires Valid(db)
    requires forall q :: q in reqs ==> !Known(q, db.ingredients)
    requires h.salePrice > 0.0
    ensures var r := CreateRecipe(db, h, reqs, owner, NoFault);
            r.1.Created? && r.1.totalCost == 0.0 && r.1.profitMargin == 100.0 && r.0.lines == db.lines
  {
    var id := db.nextRecipeId;
    MissingIngredientsAreSkipped(id, reqs, db.ingredients);
    NoKnownItems(reqs, db.ingredients);
    assert CostLines(id, reqs, db.ingredients) == [];
    var s := h.salePrice;
    assert ProfitMargin(s, 0.0) == 100.0 by {
      assert ProfitMargin(s, 0.0) * s == s * 100.0;
    }
  }

  /** Flour at 0.002 per gram, 500 g on a recipe sold at 5: the line costs
      1, the recipe costs 1 and its margin is 80. */
  lemma FlourScenario()
    ensures var flour := Ingredients.Ingredient(1, "flour", "g", 0.002, None);
            var db := Db(Ingredients.Table([flour], 2), [], [], 1);
            var h := Header("bread", "", 30, 5.0);
            var r := CreateRecipe(db, h, [LineRequest(Some(1), 500.0)], None, NoFault);
            && r.1 == Created(1, 1.0, 80.0)
            && r.0.lines == [LineRow(1, 1, 500.0, 1.0)]
  {
    var flour := Ingredients.Ingredient(1, "flour", "g", 0.002, None);
    var ings := Ingredients.Table([flour], 2);
    var reqs := [LineRequest(Some(1), 500.0)];
    assert Ingredients.Lookup(ings, 1) == Some(flour);
    assert CostLines(1, reqs, ings) == [LineRow(1, 1, 500.0, 1.0)] by {
      assert reqs[1..] == [];
    }
    assert TotalCost([LineRow(1, 1, 500.0, 1.0)]) == 1.0;
  }
}

=== FILE: recipes.dfy ===
/** The recipe controller's save protocol. A save is one transaction:
    BEGIN, write the header, (on update) delete every line of the recipe,
    insert one line per request whose ingredient exists, write the totals,
    COMMIT. A failure anywhere in between rolls back, so a save returns
    either the new store or the store it was given. */
module Recipes {
  import opened Wrappers
  import opened Numbers
  import Ingredients

  /** The columns a save writes from the request body. */
  datatype Header = Header(name: string, description: string, prepMinutes: int, salePrice: real)

  /** One item of the request's ingredient list. The id is None when the
      item carries no `ingredient_id`; the lookup then finds no row. */
  datatype LineRequest = LineRequest(ingredientId: Option<int>, quantity: real)

  /** A `recipes` row. `owner` is the `user_id` column, which the controller
      never writes. */
  datatype RecipeRow = RecipeRow(id: int, owner: Option<int>, header: Header, totalCost: real, profitMargin: real)

  /** A `recipe_ingredients` row; the cost is a snapshot taken at save time. */
  datatype LineRow = LineRow(recipeId: int, ingredientId: int, quantity: real, costContribution: real)

  /** The store: both recipe tables in insertion order plus the ingredient
      table the saves read prices from. */
  datatype Db = Db(ingredients: Ingredients.Table, recipes: seq<RecipeRow>, lines: seq<LineRow>, nextRecipeId: int)

  /** Where a database statement inside the transaction fails. */
  datatype FaultPoint = AtHeader | AtDeleteLines | AtItem(index: nat) | AtTotals | AtCommit
  datatype Fault = NoFault | FailAt(point: FaultPoint)

  /** The reply: 201 or 200 with the totals, 404, or 500 after a rollback. */
  datatype SaveResponse =
    | Created(id: int, totalCost: real, profitMargin: real)
    | Updated(id: int, totalCost: real, profitMargin: real)
    | NotFound
    | ServerError

  /** The margin in percent of the sale price; 0 when the price is not
      positive. It is not clamped: a cost above the price gives a negative
      margin. */
  function ProfitMargin(sale: real, total: real): (m: real)
    ensures sale > 0.0 ==> m * sale == (sale - total) * 100.0
    ensures sale > 0.0 ==> (m < 0.0 <==> total > sale) && (m <= 100.0 <==> total >= 0.0)
    ensures sale <= 0.0 ==> m == 0.0
  {
    if sale > 0.0 then (sale - total) / sale * 100.0 else 0.0
  }

  function LineCost(l: LineRow): real {
    l.costContribution
  }

  /** Sum of the cost contributions of `lines`. */
  function TotalCost(lines: seq<LineRow>): real {
    SumOf(lines, LineCost)
  }

  /** The running `totalCost +=` over two runs of lines adds up. */
  lemma TotalCostAppend(a: seq<LineRow>, b: seq<LineRow>)
    ensures TotalCost(a + b) == TotalCost(a) + TotalCost(b)
  {
    SumOfAppend(a, b, LineCost);
  }

  /** `WHERE recipe_id = $1` over the line table, in table order. */
  function LinesOf(lines: seq<LineRow>, id: int): (r: seq<LineRow>)
    ensures forall l :: l in r <==> l in lines && l.recipeId == id
    ensures |r| <= |lines|
  {
    if |lines| == 0 then []
    else
      assert forall l :: l in lines <==> l == lines[0] || l in lines[1..];
      (if lines[0].recipeId == id then [lines[0]] else []) + LinesOf(lines[1..], id)
  }

  /** `DELETE FROM recipe_ingredients WHERE recipe_id = $1`. */
  function DropLinesOf(lines: seq<LineRow>, id: int): (r: seq<LineRow>)
    ensures forall l :: l in r <==> l in lines && l.recipeId != id
    ensures |r| <= |lines|
  {
    if |lines| == 0 then []
    else
      assert forall l :: l in lines <==> l == lines[0] || l in lines[1..];
      (if lines[0].recipeId != id then [lines[0]] else []) + DropLinesOf(lines[1..], id)
  }

  /** The line one request item inserts: none when its ingredient is not in
      the table, otherwise one line priced at the ingredient's current cost. */
  function ItemLine(id: int, req: LineRequest, ings: Ingredients.Table): (r: seq<LineRow>)
    ensures |r| <= 1
    ensures |r| == 1 <==> req.ingredientId.Some? && Ingredients.Lookup(ings, req.ingredientId.value).Some?
    ensures |r| == 1 ==> r[0] == LineRow(id, req.ingredientId.value, req.quantity,
                                         Ingredients.Lookup(ings, req.ingredientId.value).value.costPerUnit * req.quantity)
  {
    match req.ingredientId
    case None => []
    case Some(iid) =>
      match Ingredients.Lookup(ings, iid)
      case None => []
      case Some(ing) => [LineRow(id, iid, req.quantity, ing.costPerUnit * req.quantity)]
  }

  /** The lines a save of recipe `id` with items `reqs` inserts, in request
      order: the reference the transaction loop is checked against. */
  function CostLines(id: int, reqs: seq<LineRequest>, ings: Ingredients.Table): (r: seq<LineRow>)
    ensures |r| <= |reqs|
    ensures forall l :: l in r ==> l.recipeId == id
    ensures forall l :: l in r ==>
              (Ingredients.Lookup(ings, l.ingredientId).Some?
               && l.costContribution == Ingredients.Lookup(ings, l.ingredientId).value.costPerUnit * l.quantity)
  {
    if |reqs| == 0 then [] else ItemLine(id, reqs[0], ings) + CostLines(id, reqs[1..], ings)
  }

  /** True when the fault fires during a loop over `n` items. */
  predicate FailsAtItem(fault: Fault, from: nat, n: nat) {
    fault.FailAt? && fault.point.AtItem? && from <= fault.point.index < n
  }

  /** The `for (const item of ingredients)` loop from item `k` on: look the
      ingredient up, insert the line, add its cost to the running total.
      None when a statement of the loop fails. */
  function InsertLines(work: Db, id: int, reqs: seq<LineRequest>, k: nat, fault: Fault, total: real)
    : (r: Option<(Db, real)>)
    requires k <= |reqs|
    decreases |reqs| - k
    ensures r.None? <==> FailsAtItem(fault, k, |reqs|)
    ensures r.Some? ==> r.value.0 == work.(lines := work.lines + CostLines(id, reqs[k..], work.ingredients))
    ensures r.Some? ==> r.value.1 == total + TotalCost(CostLines(id, reqs[k..], work.ingredients))
  {
    if k == |reqs| then Some((work, total))
    else if fault == FailAt(AtItem(k)) then None
    else
      var item := ItemLine(id, reqs[k], work.ingredients);
      var total' := if |item| == 1 then total + item[0].costContribution else total;
      LoopStep(id, reqs, k, work.ingredients);
      assert work.lines + item + CostLines(id, reqs[k + 1..], work.ingredients)
          == work.lines + CostLines(id, reqs[k..], work.ingredients);
      InsertLines(work.(lines := work.lines + item), id, reqs, k + 1, fault, total')
  }

  /** One turn of the loop: item `k` contributes its line (if any) and its
      cost ahead of the remaining items. */
  lemma LoopStep(id: int, reqs: seq<LineRequest>, k: nat, ings: Ingredients.Table)
    requires k < |reqs|
    ensures CostLines(id, reqs[k..], ings) == ItemLine(id, reqs[k], ings) + CostLines(id, reqs[k + 1..], ings)
    ensures var item := ItemLine(id, reqs[k], ings);
            TotalCost(CostLines(id, reqs[k..], ings))
              == (if |item| == 1 then item[0].costContribution else 0.0) + TotalCost(CostLines(id, reqs[k + 1..], ings))
  {
    var item := ItemLine(id, reqs[k], ings);
    assert reqs[k..][1..] == reqs[k + 1..];
    SumOfAppend(item, CostLines(id, reqs[k + 1..], ings), LineCost);
    assert |item| == 1 ==> item[..0] == [];
  }

  /** `UPDATE recipes SET name, description, preparation_time_minutes, sale_price WHERE id`. */
  function WithHeader(rs: seq<RecipeRow>, id: int, h: Header): (r: seq<RecipeRow>)
    ensures |r| == |rs|
    ensures forall k :: 0 <= k < |rs| ==> r[k] == if rs[k].id == id then rs[k].(header := h) else rs[k]
  {
    seq(|rs|, k requires 0 <= k < |rs| => if rs[k].id == id then rs[k].(header := h) else rs[k])
  }

  /** `UPDATE recipes SET total_cost, profit_margin WHERE id`. */
  function WithTotals(rs: seq<RecipeRow>, id: int, total: real, margin: real): (r: seq<RecipeRow>)
    ensures |r| == |rs|
    ensures forall k :: 0 <= k < |rs| ==>
              r[k] == if rs[k].id == id then rs[k].(totalCost := total, profitMargin := margin) else rs[k]
  {
    seq(|rs|, k requires 0 <= k < |rs| =>
      if rs[k].id == id then rs[k].(totalCost := total, profitMargin := margin) else rs[k])
  }

  predicate HasRecipe(rs: seq<RecipeRow>, id: int) {
    exists k :: 0 <= k < |rs| && rs[k].id == id
  }

  /** The store invariant: recipe keys come from a serial counter, so they
      increase along the table and stay below the next key; every line
      belongs to an existing recipe. */
  ghost predicate Valid(db: Db) {
    && (forall i, j :: 0 <= i < j < |db.recipes| ==> db.recipes[i].id < db.recipes[j].id)
    && (forall i :: 0 <= i < |db.recipes| ==> db.recipes[i].id < db.nextRecipeId)
    && (forall l :: l in db.lines ==> HasRecipe(db.recipes, l.recipeId))
  }

  /** True when `fault` fires in a create with `n` items. */
  predicate CreateFails(fault: Fault, n: nat) {
    fault == FailAt(AtHeader) || FailsAtItem(fault, 0, n)
    || fault == FailAt(AtTotals) || fault == FailAt(AtCommit)
  }

  /** createRecipe. The header is inserted under the next serial key with
      `ownerDefault` in `user_id` (the schema's column default; the insert
      names no owner) and placeholder totals that the totals step overwrites. */
  function CreateRecipe(db: Db, h: Header, reqs: seq<LineRequest>, ownerDefault: Option<int>, fault: Fault)
    : (r: (Db, SaveResponse))
    requires Valid(db)
    ensures r.1.Created? || r.1.ServerError?
    ensures r.1.ServerError? <==> CreateFails(fault, |reqs|)
    ensures r.1.ServerError? ==> r.0 == db
    ensures r.1.Created? ==>
      && r.1.id == db.nextRecipeId && r.0.nextRecipeId > r.1.id
      && r.0.ingredients == db.ingredients
      && r.0.recipes == db.recipes + [RecipeRow(r.1.id, ownerDefault, h, r.1.totalCost, r.1.profitMargin)]
      && r.0.lines == db.lines + CostLines(r.1.id, reqs, db.ingredients)
      && r.1.totalCost == TotalCost(CostLines(r.1.id, reqs, db.ingredients))
      && r.1.profitMargin == ProfitMargin(h.salePrice, r.1.totalCost)
  {
    if fault == FailAt(AtHeader) then (db, ServerError)
    else
      var id := db.nextRecipeId;
      var work := db.(recipes := db.recipes + [RecipeRow(id, ownerDefault, h, 0.0, 0.0)], nextRecipeId := id + 1);
      match InsertLines(work, id, reqs, 0, fault, 0.0)
      case None => (db, ServerError)
      case Some((work', total)) =>
        if fault == FailAt(AtTotals) then (db, ServerError)
        else
          var margin := ProfitMargin(h.salePrice, total);
          var done := work'.(recipes := WithTotals(work'.recipes, id, total, margin));
          if fault == FailAt(AtCommit) then (db, ServerError)
          else
            assert reqs[0..] == reqs;
            assert done.recipes == db.recipes + [RecipeRow(id, ownerDefault, h, total, margin)] by {
              FreshKeyRows(db.recipes, id, ownerDefault, h, total, margin);
            }
            (done, Created(id, total, margin))
  }

  /** Setting the totals of the freshly appended row touches no other row
      when no earlier row shares its key. */
  lemma FreshKeyRows(rs: seq<RecipeRow>, id: int, owner: Option<int>, h: Header, total: real, margin: real)
    ensures !HasRecipe(rs, id) ==>
      WithTotals(rs + [RecipeRow(id, owner, h, 0.0, 0.0)], id, total, margin) == rs + [RecipeRow(id, owner, h, total, margin)]
  {
  }

  /** True when `fault` fires in an update of an existing recipe with `n` items. */
  predicate UpdateFails(fault: Fault, n: nat) {
    CreateFails(fault, n) || fault == FailAt(AtDeleteLines)
  }

  /** updateRecipe. Not scoped to an owner: any row with key `id` is
      rewritten. Its lines are all deleted and rebuilt from `reqs`. */
  function UpdateRecipe(db: Db, id: int, h: Header, reqs: seq<LineRequest>, fault: Fault): (r: (Db, SaveResponse))
    ensures r.1.Updated? || r.1.NotFound? || r.1.ServerError?
    ensures r.1.NotFound? <==> fault != FailAt(AtHeader) && !HasRecipe(db.recipes, id)
    ensures r.1.ServerError? <==> (HasRecipe(db.recipes, id) && UpdateFails(fault, |reqs|)) || fault == FailAt(AtHeader)
    ensures !r.1.Updated? ==> r.0 == db
    ensures r.1.Updated? ==>
      && r.1.id == id
      && r.0.ingredients == db.ingredients && r.0.nextRecipeId == db.nextRecipeId
      && r.0.lines == DropLinesOf(db.lines, id) + CostLines(id, reqs, db.ingredients)
      && r.1.totalCost == TotalCost(CostLines(id, reqs, db.ingredients))
      && r.1.profitMargin == ProfitMargin(h.salePrice, r.1.totalCost)
      && |r.0.recipes| == |db.recipes|
      && forall k :: 0 <= k < |db.recipes| ==>
           r.0.recipes[k] == if db.recipes[k].id == id
                             then db.recipes[k].(header := h, totalCost := r.1.totalCost, profitMargin := r.1.profitMargin)
                             else db.recipes[k]
  {
    if fault == FailAt(AtHeader) then (db, ServerError)
    else if !HasRecipe(db.recipes, id) then (db, NotFound)
    else
      var headed := db.(recipes := WithHeader(db.recipes, id, h));
      if fault == FailAt(AtDeleteLines) then (db, ServerError)
      else
        var cleared := headed.(lines := DropLinesOf(headed.lines, id));
        match InsertLines(cleared, id, reqs, 0, fault, 0.0)
        case None => (db, ServerError)
        case Some((work, total)) =>
          if fault == FailAt(AtTotals) then (db, ServerError)
          else
            var margin := ProfitMargin(h.salePrice, total);
            var done := work.(recipes := WithTotals(work.recipes, id, total, margin));
            if fault == FailAt(AtCommit) then (db, ServerError)
            else
              assert reqs[0..] == reqs;
              (done, Updated(id, total, margin))
  }

  /** getAllRecipes: `ORDER BY created_at DESC`, newest first. Rows are
      created in table order, so this is the table reversed. */
  function AllRecipes(db: Db): (r: seq<RecipeRow>)
    requires Valid(db)
    ensures multiset(r) == multiset(db.recipes)
    ensures forall i, j :: 0 <= i < j < |r| ==> r[i].id > r[j].id
  {
    Reversed(db.recipes)
  }

  function Reversed(rs: seq<RecipeRow>): (r: seq<RecipeRow>)
    ensures |r| == |rs|
    ensures forall k :: 0 <= k < |r| ==> r[k] == rs[|rs| - 1 - k]
    ensures multiset(r) == multiset(rs)
  {
    if |rs| == 0 then []
    else
      assert rs == rs[..|rs| - 1] + [rs[|rs| - 1]];
      [rs[|rs| - 1]] + Reversed(rs[..|rs| - 1])
  }
}

=== FILE: sorting.dfy ===
/** Ordering used by the SQL `ORDER BY` clauses of the model: a stable
    insertion sort over any total preorder, and lexicographic order on
    strings. SQL leaves the order of tied rows unspecified, so the contracts
    below promise nothing about ties. */
module Sorting {

  /** `le` is total and transitive: a valid `ORDER BY` comparison. */
  ghost predicate TotalPreorder<T(!new)>(le: (T, T) -> bool) {
    && (forall a, b :: le(a, b) || le(b, a))
    && (forall a, b, c :: le(a, b) && le(b, c) ==> le(a, c))
  }

  ghost predicate SortedBy<T>(s: seq<T>, le: (T, T) -> bool) {
    forall i, j :: 0 <= i < j < |s| ==> le(s[i], s[j])
  }

  /** Inserts `x` before the first element it is not after. */
  function Insert<T(!new)>(x: T, s: seq<T>, le: (T, T) -> bool): (r: seq<T>)
    requires TotalPreorder(le)
    requires SortedBy(s, le)
    ensures SortedBy(r, le)
    ensures multiset(r) == multiset(s) + multiset{x}
    ensures |r| == |s| + 1
  {
    if |s| == 0 then [x]
    else if le(x, s[0]) then [x] + s
    else
      var rest := Insert(x, s[1..], le);
      assert multiset(s) == multiset{s[0]} + multiset(s[1..]) by {
        assert s == [s[0]] + s[1..];
      }
      assert forall k :: 0 <= k < |rest| ==> le(s[0], rest[k]) by {
        assert le(s[0], x);
        forall k | 0 <= k < |rest|
          ensures le(s[0], rest[k])
        {
          assert rest[k] in multiset(rest);
          if rest[k] != x {
            assert rest[k] in multiset(s[1..]);
            var j :| 0 <= j < |s[1..]| && s[1..][j] == rest[k];
            assert s[j + 1] == rest[k];
          }
        }
      }
      [s[0]] + rest
  }

  /** Sorts `s` by `le`; the result is a permutation of `s`. */
  function SortBy<T(!new)>(s: seq<T>, le: (T, T) -> bool): (r: seq<T>)
    requires TotalPreorder(le)
    ensures SortedBy(r, le)
    ensures multiset(r) == multiset(s)
    ensures |r| == |s|
  {
    if |s| == 0 then []
    else
      assert s == [s[0]] + s[1..];
      Insert(s[0], SortBy(s[1..], le), le)
  }

  /** The first `n` elements of a sorted sequence (`LIMIT n`): no element
      left out comes before any element kept. */
  lemma TakeSplitsSorted<T>(s: seq<T>, le: (T, T) -> bool, n: nat)
    requires SortedBy(s, le)
    requires n <= |s|
    ensures multiset(s) - multiset(s[..n]) == multiset(s[n..])
    ensures forall x, i :: x in multiset(s[n..]) && 0 <= i < n ==> le(s[..n][i], x)
  {
    assert s == s[..n] + s[n..];
    assert multiset(s) == multiset(s[..n]) + multiset(s[n..]);
    forall x, i | x in multiset(s[n..]) && 0 <= i < n
      ensures le(s[..n][i], x)
    {
      var j :| 0 <= j < |s[n..]| && s[n..][j] == x;
      assert s[n + j] == x;
    }
  }

  /** The first `n` elements in `le` order (`ORDER BY … LIMIT n`): no
      element left out comes before one kept. */
  function SortedPrefix<T(!new)>(s: seq<T>, le: (T, T) -> bool, n: nat): (r: seq<T>)
    requires TotalPreorder(le)
    ensures |r| == if n <= |s| then n else |s|
    ensures r == SortBy(s, le)[..|r|]
    ensures SortedBy(r, le)
    ensures multiset(r) <= multiset(s)
    ensures forall x, i :: x in multiset(s) - multiset(r) && 0 <= i < |r| ==> le(r[i], x)
  {
    var m := if n <= |s| then n else |s|;
    PrefixOfSorted(s, le, m);
    SortBy(s, le)[..m]
  }

  lemma PrefixOfSorted<T(!new)>(s: seq<T>, le: (T, T) -> bool, m: nat)
    requires TotalPreorder(le)
    requires m <= |s|
    ensures var r := SortBy(s, le)[..m];
            && SortedBy(r, le)
            && multiset(r) <= multiset(s)
            && forall x, i :: x in multiset(s) - multiset(r) && 0 <= i < |r| ==> le(r[i], x)
  {
    TakeOfPermutation(s, SortBy(s, le), le, m);
  }

  /** The same for any sorted permutation `sorted` of `s`. */
  lemma TakeOfPermutation<T>(s: seq<T>, sorted: seq<T>, le: (T, T) -> bool, m: nat)
    requires SortedBy(sorted, le) && multiset(sorted) == multiset(s)
    requires m <= |sorted|
    ensures var r := sorted[..m];
            && SortedBy(r, le)
            && multiset(r) <= multiset(s)
            && forall x, i :: x in multiset(s) - multiset(r) && 0 <= i < |r| ==> le(r[i], x)
  {
    var r := sorted[..m];
    TakeSplitsSorted(sorted, le, m);
    assert sorted == r + sorted[m..];
    assert multiset(sorted) == multiset(r) + multiset(sorted[m..]);
    forall i, j | 0 <= i < j < |r| ensures le(r[i], r[j]) {
      assert r[i] == sorted[i] && r[j] == sorted[j];
    }
  }

  /** Lexicographic order on strings by character code. */
  predicate StrLe(a: string, b: string)
    decreases |a|
  {
    |a| == 0 || (|b| > 0 && (a[0] < b[0] || (a[0] == b[0] && StrLe(a[1..], b[1..]))))
  }

  lemma {:induction false} StrLeTotal(a: string, b: string)
    ensures StrLe(a, b) || StrLe(b, a)
    decreases |a|
  {
    if |a| > 0 && |b| > 0 && a[0] == b[0] {
      StrLeTotal(a[1..], b[1..]);
    }
  }

  lemma {:induction false} StrLeTransitive(a: string, b: string, c: string)
    requires StrLe(a, b) && StrLe(b, c)
    ensures StrLe(a, c)
    decreases |a|
  {
    if |a| > 0 && a[0] == b[0] && b[0] == c[0] {
      StrLeTransitive(a[1..], b[1..], c[1..]);
    }
  }
}

=== FILE: units.dfy ===
/** The client's fixed unit catalog: every tag belongs to a dimension and
    carries a factor to that dimension's base unit (grams, millilitres,
    pieces). The server does no unit handling at all. */
module Units {
  import opened Wrappers

  datatype Dimension = Mass | Volume | Count

  /** The catalog's tags in declaration order, the order `Object.keys`
      lists them in. */
  const Tags: seq<string> := ["kg", "g", "lb", "oz", "litro", "ml", "galon", "pieza", "docena", "six"]

  /** The dimension table; None for a tag outside the catalog. */
  function DimensionOf(tag: string): (r: Option<Dimension>)
    ensures r.Some? <==> tag in Tags
  {
    if tag in {"kg", "g", "lb", "oz"} then Some(Mass)
    else if tag in {"litro", "ml", "galon"} then Some(Volume)
    else if tag in {"pieza", "docena", "six"} then Some(Count)
    else None
  }

  /** The factor table: how many base units one unit of `tag` holds. */
  function FactorOf(tag: string): (r: Option<real>)
    ensures r.Some? <==> tag in Tags
    ensures r.Some? ==> r.value > 0.0
  {
    match tag
    case "kg" => Some(1000.0)
    case "g" => Some(1.0)
    case "lb" => Some(453.592)
    case "oz" => Some(28.3495)
    case "litro" => Some(1000.0)
    case "ml" => Some(1.0)
    case "galon" => Some(3785.41)
    case "pieza" => Some(1.0)
    case "docena" => Some(12.0)
    case "six" => Some(6.0)
    case _ => None
  }

  /** The base unit of a dimension: the one tag of that dimension whose
      factor is 1. */
  function BaseUnit(d: Dimension): (t: string)
    ensures DimensionOf(t) == Some(d) && FactorOf(t) == Some(1.0)
    ensures forall u :: DimensionOf(u) == Some(d) && FactorOf(u) == Some(1.0) ==> u == t
  {
    match d
    case Mass => "g"
    case Volume => "ml"
    case Count => "pieza"
  }

  /** Converts `q` units of `from` into units of `to`; None when either tag
      is unknown or the dimensions differ. */
  function Convert(q: real, from: string, to: string): (r: Option<real>)
    ensures r.Some? <==> from in Tags && to in Tags && DimensionOf(from) == DimensionOf(to)
    ensures r.Some? ==> r.value * FactorOf(to).value == q * FactorOf(from).value
  {
    if DimensionOf(from).Some? && DimensionOf(from) == DimensionOf(to) then
      Some(q * FactorOf(from).value / FactorOf(to).value)
    else None
  }

  /** Converting there and back returns the original quantity. */
  lemma ConvertRoundTrip(q: real, a: string, b: string)
    requires Convert(q, a, b).Some?
    ensures Convert(Convert(q, a, b).value, b, a) == Some(q)
  {
    var fa, fb := FactorOf(a).value, FactorOf(b).value;
    ScaleRoundTrip(q, fa, fb);
  }

  lemma ScaleRoundTrip(q: real, fa: real, fb: real)
    requires fa > 0.0 && fb > 0.0
    ensures q * fa / fb * fb / fa == q
  {
    var p := q * fa / fb;
    assert p * fb == q * fa;
  }

  /** The tags of `tags` whose dimension is `d`, in their order. */
  function WithDimension(tags: seq<string>, d: Dimension): (r: seq<string>)
    ensures forall t :: t in r <==> t in tags && DimensionOf(t) == Some(d)
    ensures |r| <= |tags|
    ensures NoRepeats(tags) ==> NoRepeats(r)
  {
    if |tags| == 0 then []
    else
      var rest := WithDimension(tags[1..], d);
      assert forall t :: t in tags <==> t == tags[0] || t in tags[1..];
      if DimensionOf(tags[0]) == Some(d) then [tags[0]] + rest else rest
  }

  /** Position of a catalog tag in `Tags`. */
  function TagIndex(t: string): int {
    match t
    case "kg" => 0
    case "g" => 1
    case "lb" => 2
    case "oz" => 3
    case "litro" => 4
    case "ml" => 5
    case "galon" => 6
    case "pieza" => 7
    case "docena" => 8
    case "six" => 9
    case _ => -1
  }

  /** The catalog lists each tag once, as the keys of an object do. */
  lemma TagsHaveNoRepeats()
    ensures NoRepeats(Tags)
  {
    forall k | 0 <= k < |Tags| ensures TagIndex(Tags[k]) == k {
    }
  }

  /** No tag appears twice. */
  predicate NoRepeats(ts: seq<string>) {
    forall i, j :: 0 <= i < j < |ts| ==> ts[i] != ts[j]
  }

  /** The units offered for an ingredient measured in `u`: every catalog
      tag of the same dimension, or just `u` when it is outside the catalog. */
  function AvailableUnits(u: string): (r: seq<string>)
    ensures u in r
    ensures DimensionOf(u).None? ==> r == [u]
    ensures forall t :: t in r <==> t == u || (t in Tags && DimensionOf(t) == DimensionOf(u))
    ensures NoRepeats(r)
  {
    match DimensionOf(u)
    case None => [u]
    case Some(d) => TagsHaveNoRepeats(); WithDimension(Tags, d)
  }
}

=== FILE: wrappers.dfy ===
/** Optional values: a missing row, an absent request field, an unknown unit tag. */
module Wrappers {

  datatype Option<+T> = None | Some(value: T) {

    /** Returns the value held in Some, or `default` when None. */
    function GetOr(default: T): T {
      match this
      case Some(v) => v
      case None => default
    }
  }
}
